=== FILE: README.md ===
# Block-model baking engine of wgpu-mc, modelled in Dafny

This project models the block-model baking engine of the wgpu-mc renderer
(`rust/wgpu-mc/src/mc/block.rs`). The engine turns the model references of a
block state into a `ModelMesh` that the chunk mesher uses. It has four parts:

- **Block-state keys.** A `BlockstateKey` is a 16-bit block index and a 16-bit
  augment. It packs into one 32-bit value and unpacks from one
  (`blockstate.dfy`).
- **Model resolution.** The parent walk follows `parent` links and collects
  the ancestor paths, farthest first. The ancestors are then merged with the
  model. Finally, one substitution pass replaces each `#name` texture variable
  with what that variable holds in a copy taken before the pass
  (`resolver.dfy`).
- **Atlas preparation.** The bake rejects a model whose texture variables
  still hold a reference. It collects the texture ids the atlas does not hold
  yet, fetches their images, and calls `allocate` once with the whole batch,
  and only when the batch is not empty (`bake.dfy`, `atlas.dfy`).
- **Element bake and classification.** Every element becomes a fixed table of
  24 vertices: south, west, north, east, up and down, four vertices each. Each
  face gets a fixed six-index triangle pattern, or nothing when it is absent.
  A model is a cube when it is one full-size element. A cube is wrapped as
  `Cube` and lets its neighbours be culled. Anything else is wrapped as
  `Complex` (`faces.dfy`, `bake.dfy`).

Modelling choices:

- The resource provider is a value. It maps paths to documents and paths to
  image bytes. A document is either parsed into the model schema or
  `Malformed`; this folds reading the text and parsing it into one lookup.
- Where the engine panics (`expect` or `unwrap`), the model returns the
  outcome `Panicked`. This is distinct from the errors the engine reports
  (`Err(MeshBakeError)`).
- The parent walk has no cycle guard. Its callers must therefore supply a
  bound on the length of the parent chain of every model reference the bake
  reaches (`ChainEnds`, `RefChainEnds`, `ReachedChainsEnd`). The bake stops at
  the first reference that fails, so a reference after it is never loaded and
  nothing is demanded of it, nor of documents no reference names.
- The atlas is a class whose `uvMap` and `animatedTextureOffsets` maps the
  bake reads and `Allocate` extends. A ghost counter records how often
  `Allocate` runs.
- `MeshBake.Bake` also returns, as a ghost result, a snapshot of the atlas
  taken right after each reference was prepared. Each entry is baked against
  the atlas as it stands at that moment (block.rs:239-246, 436-444), so the
  snapshots are what lets the contract state each entry's full contents.
- Vertex positions are symbolic: they are the element corners `a`–`h`, each
  taking `from` or `to` on each axis. Normals are integer triples.

Points where the engine's behaviour is easy to misread, and where the model
departs from it:

- Texture variables are substituted in one pass over a copy taken before it
  (block.rs:134-142). Under the assumed `resolve` (a single lookup in that
  copy, see "## Left out"), the pass does not chase chains, and a reference
  that survives it is rejected later by the bake (block.rs:215-217).
- Parent cycles are not detected by the walk (block.rs:88-112). The model
  does not detect them either; it asks its callers for a bound instead.
- The ancestors are merged in the corrected order, nearest first, and a
  model is a cube only when it is a single full-size element. The engine
  does otherwise in both places. Both differences are listed under
  "## Findings", where the engine's own behaviour is modelled and shown.
  `Resolver.Resolve`, `Resolver.ResolveModel`, `MeshBake.PrepareModel` and
  `MeshBake.Bake` use the corrected definitions.

## Model

| member | source | states |
|---|---|---|
| BlockstateKeys.BlockstateKey.Pack | rust/wgpu-mc/src/mc/block.rs:24-28 | the packed value holds the block in its high 16 bits and the augment in its low 16 bits |
| BlockstateKeys.FromPair | rust/wgpu-mc/src/mc/block.rs:30-37 | the key takes the pair's first half as block and second half as augment |
| BlockstateKeys.FromU32 | rust/wgpu-mc/src/mc/block.rs:39-43 | unpacking takes the block from the high half and the augment from the low half |
| BlockstateKeys.UnpackPack | rust/wgpu-mc/src/mc/block.rs:24-43 | unpacking a packed key gives the key back |
| BlockstateKeys.PackUnpack | rust/wgpu-mc/src/mc/block.rs:24-43 | packing an unpacked 32-bit value gives the value back |
| BlockstateKeys.IsAirIffNoKey | rust/wgpu-mc/src/mc/block.rs:45-56 | a voxel is air exactly when it carries no block-state key |
| Resolver.AncestorPaths | rust/wgpu-mc/src/mc/block.rs:88-112 | no parent gives no paths; a successful walk ends with the immediate parent's `models/<id>.json`; a missing or malformed ancestor aborts; the walk never reports an error |
| Resolver.AncestorPathsLinked | rust/wgpu-mc/src/mc/block.rs:88-112 | a successful walk yields exactly the ancestor chain, farthest first: each entry is the parent of the next, the first has no parent, one entry per ancestor |
| Resolver.LinkedIsAncestorPaths | rust/wgpu-mc/src/mc/block.rs:88-112 | conversely, any ancestor chain of the model is what the walk yields |
| Resolver.AncestorPathsLoadable | rust/wgpu-mc/src/mc/block.rs:122-130 | every path the walk yields names a parsable document, so reloading the ancestors cannot fail |
| Resolver.RecurseModelParents | rust/wgpu-mc/src/mc/block.rs:88-112 | the recursive walk appends the ancestor paths, farthest first, to the accumulator it is given, or aborts as the walk does |
| Resolver.LoadAll | rust/wgpu-mc/src/mc/block.rs:125-130 | the reloaded ancestors are the documents at the walked paths, in order |
| Resolver.MergeTextures | rust/wgpu-mc/src/mc/block.rs:132 | the merged texture variables exist exactly when some model of the chain has texture variables |
| Resolver.FirstElements | rust/wgpu-mc/src/mc/block.rs:132 | the merged elements exist exactly when some model of the chain has elements |
| Resolver.ChaseFace | rust/wgpu-mc/src/mc/block.rs:132 | a chased face texture is the face's own value or the value of some merged variable |
| Resolver.MergedFaceTexture | rust/wgpu-mc/src/mc/block.rs:132 | a face naming no variable, or in a chain without variables, keeps its texture; otherwise it shows its own value or a merged variable's value |
| Resolver.ChaseOneHop | rust/wgpu-mc/src/mc/block.rs:132 | a face naming a variable whose merged value is concrete shows that value |
| Resolver.ChaseTwoHops | rust/wgpu-mc/src/mc/block.rs:132 | a face naming `k1`, where `k1` holds `#k2` and `k2` a concrete texture, shows that texture |
| Resolver.MergeChain | rust/wgpu-mc/src/mc/block.rs:132 | the merged model has no parent; it has texture variables, or elements, exactly when some model of the chain has them, and as many elements as the first model with elements |
| Resolver.NearestWins | rust/wgpu-mc/src/mc/block.rs:132 | a variable takes its value from the first model of the chain that defines it |
| Resolver.MergedKeysDefined | rust/wgpu-mc/src/mc/block.rs:132 | every merged variable is defined by some model of the chain |
| Resolver.FaceVariableTakesNearestValue | rust/wgpu-mc/src/mc/block.rs:132 | a merged element face naming `#k` shows what the value of `k` in the nearest model defining it chases to, and that value itself when it is concrete |
| Resolver.MergedElementsKeepShape | rust/wgpu-mc/src/mc/block.rs:132 | the merge keeps every element's bounds and set of faces, and every face that is not a reference |
| Resolver.MergeOrderAsWritten | rust/wgpu-mc/src/mc/block.rs:122-132 | the engine passes the model and then its ancestors in walk order, farthest first |
| Resolver.MergeOrderAsWrittenFarthestWins | rust/wgpu-mc/src/mc/block.rs:88-132 | in that order a grandparent's texture variable overrides the parent's |
| Resolver.MergeOrder | rust/wgpu-mc/src/mc/block.rs:132 | the corrected order passes the model and then its ancestors nearest first |
| Resolver.ThreeLevelNearestWins | rust/wgpu-mc/src/mc/block.rs:132 | with the corrected order, in a three-level chain the model's own value wins, then the parent's, over the grandparent's |
| Resolver.SubstitutionPass | rust/wgpu-mc/src/mc/block.rs:134-142 | the pass keeps the variable names and every non-reference value; it replaces each reference with what the variable it names held before the pass; it aborts exactly when a reference names no variable |
| Resolver.SubstitutionIsSinglePass | rust/wgpu-mc/src/mc/block.rs:134-142 | the pass does not chase chains: `a -> #b -> #c -> block/stone` leaves `a` holding `#c` |
| Resolver.SubstituteTextures | rust/wgpu-mc/src/mc/block.rs:134-142 | the in-place rewrite against a copy computes exactly the substitution pass |
| Resolver.Resolve | rust/wgpu-mc/src/mc/block.rs:114-145 | a model without a parent resolves to itself; a model with a parent resolves to a parentless model; resolution never reports an error (it can only abort) |
| Resolver.ResolvedVariable | rust/wgpu-mc/src/mc/block.rs:114-145 | for a model with ancestors: resolution goes through exactly when every merged reference names a merged variable; a variable then holds the value of the nearest model defining it, or, when that value is a reference, the merged value of the variable it names |
| Resolver.ResolveModel | rust/wgpu-mc/src/mc/block.rs:114-145 | walk, reload, merge (in the corrected order) and substitute compute exactly the resolved model |
| Faces.GetAtlasUv | rust/wgpu-mc/src/mc/block.rs:147-169 | a face has an atlas rectangle exactly when its texture is a key of the atlas, and it is that key's rectangle |
| Faces.FaceTexture | rust/wgpu-mc/src/mc/block.rs:274-356 | a face's entry exists exactly when the element defines the face and the atlas holds its texture; the entry holds that rectangle and the animation offset, 0 when the texture is not animated |
| Faces.BakeElement | rust/wgpu-mc/src/mc/block.rs:358-430 | every element bakes to exactly 24 vertices |
| Faces.FacePresence | rust/wgpu-mc/src/mc/block.rs:274-430 | a face has an index array exactly when the element defines it and the atlas holds its texture |
| Faces.FaceIndicesLayout | rust/wgpu-mc/src/mc/block.rs:412-429 | every index array has six entries, all inside its face's block of four vertices (south 0-3, west 4-7, north 8-11, east 12-15, up 16-19, down 20-23), uses all four, and forms two proper triangles |
| Faces.FaceVertexLayout | rust/wgpu-mc/src/mc/block.rs:358-411 | every vertex of a face sits on a corner in that face's plane and carries the face's normal, the face's animation offset, and the corner of the face's atlas rectangle that its position selects (side textures upright) |
| Faces.FaceCornersDistinct | rust/wgpu-mc/src/mc/block.rs:358-411 | the four vertices of a face sit on four different corners |
| Faces.AbsentFaceZeroed | rust/wgpu-mc/src/mc/block.rs:367-377 | the vertices of an absent face carry texture corner (0, 0) and offset 0 |
| MeshBake.ModelRefs | rust/wgpu-mc/src/mc/block.rs:199-200 | the references are every model reference of every variant, and nothing else |
| MeshBake.ModelRefsAppend | rust/wgpu-mc/src/mc/block.rs:199-200 | the references keep the variants' order: a further variant's references come after all earlier ones |
| MeshBake.IsCubeAsWritten | rust/wgpu-mc/src/mc/block.rs:253-265 | the engine's test holds exactly when the model has an element list whose first element spans the block, whatever follows |
| MeshBake.IsCube | rust/wgpu-mc/src/mc/block.rs:253-265 | every cube passes the engine's test, and the two tests agree on one-element lists |
| BlockAtlas.Atlas.Allocate | rust/wgpu-mc/src/mc/block.rs:239-245 | allocation adds every texture of the batch, keeps every placed texture's rectangle and animation offset, and counts one call |
| MeshBake.BakeElements | rust/wgpu-mc/src/mc/block.rs:267-433 | one bake per element, in order |
| MeshBake.WrapAsWritten | rust/wgpu-mc/src/mc/block.rs:253-444 | the engine's wrapping: the neighbour flag is the negation of its cube test, which holds for any element list whose first element is full size |
| MeshBake.CubeWithExtraElementAsWritten | rust/wgpu-mc/src/mc/block.rs:253-444 | a full cube followed by a partial element is wrapped as a cube of the partial element's faces alone, with neighbours culled |
| MeshBake.Wrap | rust/wgpu-mc/src/mc/block.rs:436-444 | with the corrected cube test: the flag is the negation of the cube test, the entry is `Cube` exactly for a cube, and `Complex` holds one mesh per element |
| MeshBake.WrapContents | rust/wgpu-mc/src/mc/block.rs:267-444 | a cube holds the bake of its single element; otherwise the entry holds the bake of each element, in order |
| MeshBake.FullCubeBake | rust/wgpu-mc/src/mc/block.rs:253-444 | a one-element full cube bakes to a cube with flag false; its up face shows the rectangle's corners; up and down carry `[16,17,18,16,18,19]` and `[22,21,20,20,21,23]` |
| MeshBake.LoadAndResolve | rust/wgpu-mc/src/mc/block.rs:202-213 | a missing model document reports `UnresolvedResourcePath` with its path; an unparsable one reports `JsonError`; no other error is reported here |
| MeshBake.FindReference | rust/wgpu-mc/src/mc/block.rs:215-217 | finds a variable that still holds a reference exactly when there is one |
| MeshBake.CollectUnallocated | rust/wgpu-mc/src/mc/block.rs:219-230 | the ids are, in the order the variables are visited, the texture of each variable whose texture the atlas lacks: each id occurs once per variable naming it, the ids are exactly the lacking textures, and there is at most one per variable |
| MeshBake.MissingIdsCount | rust/wgpu-mc/src/mc/block.rs:219-230 | over distinct variables, a texture id is collected once for every variable naming it, and only when the atlas lacks it |
| MeshBake.FetchTextureBytes | rust/wgpu-mc/src/mc/block.rs:234-237 | the batch pairs each id with its image at `textures/<id>.png`, in order; a missing image aborts |
| MeshBake.FetchMissing | rust/wgpu-mc/src/mc/block.rs:219-237 | the batch covers exactly the lacking textures, each with its image bytes, and is empty exactly when nothing is lacking; it aborts exactly when some lacking texture has no image, naming that image |
| MeshBake.AllocateMissing | rust/wgpu-mc/src/mc/block.rs:215-246 | it aborts exactly when some lacking texture has no image, with that image's path; on abort, or when nothing is lacking, the atlas is unchanged and `allocate` is not called; otherwise the atlas keys become the old keys plus the model's textures and `allocate` runs once; existing rectangles and animation offsets are always kept |
| MeshBake.PrepareModel | rust/wgpu-mc/src/mc/block.rs:199-246 | load and resolve failures pass through unchanged; a surviving reference reports `UnresolvedTextureReference` with its key and value; once prepared, the model is returned exactly when every lacking texture has an image, and otherwise aborts naming one that has none; on success the atlas keys become the old keys plus the model's textures; on failure, or when nothing is lacking, the atlas is unchanged; allocation runs once exactly when something was lacking; rectangles and offsets are kept |
| MeshBake.BakeReference | rust/wgpu-mc/src/mc/block.rs:199-444 | one reference, its predecessors having baked: an error or abort is the first failure and leaves the atlas unchanged; otherwise the reference bakes against the starting atlas, the entry is its model wrapped against the atlas as preparing it left it, and the atlas keys gain exactly its textures |
| MeshBake.Bake | rust/wgpu-mc/src/mc/block.rs:194-448 | with the corrected merge order and cube test: the bake succeeds exactly when every model reference bakes against the starting atlas (loads, resolves, has only concrete textures, and every texture the atlas lacks has an image); success gives one entry per reference, in variant order, each its model wrapped against the atlas as it stood right after that reference's allocation (a snapshot whose keys are the old keys plus the textures of the references so far, and whose rectangles and offsets survive to the end); an error or abort is that of the first failing reference, right after the last snapshot, all earlier ones baked; in every outcome the atlas holds exactly its old textures and those of the references baked before the end; existing rectangles and offsets are kept; allocation runs at most once per reference |
| MeshBake.UnreachedReferencesUnconstrained | rust/wgpu-mc/src/mc/block.rs:199-213 | when the first reference names no document, no later reference needs a bounded parent chain, since the bake never loads it |

## Findings

| source | as written | input that shows it | evidently intended | confidence | as-written member | corrected member |
|---|---|---|---|---|---|---|
| rust/wgpu-mc/src/mc/block.rs:253-265 | `model.elements.iter().len() == 1` iterates the optional element list, so it holds for any list; only the first element is tested, and `results.pop()` takes the last | elements `[full cube, slab]`: classified as a cube, baked as the slab alone, neighbours culled | a cube is exactly one element spanning 0..16 on every axis | high (the `.iter().flatten()` at lines 254 and 268-270 shows `elements` is optional); not executed | MeshBake.CubeWithExtraElementAsWritten | MeshBake.Wrap |
| rust/wgpu-mc/src/mc/block.rs:122-132 | the ancestors are chained after the model in walk order, farthest first | child → parent → grandparent, where parent and grandparent both define `all`: the grandparent's value wins | the model first, then its ancestors nearest first, so the nearest definition wins | medium (assumes the merge takes the model first and then its ancestors nearest first); not executed | Resolver.MergeOrderAsWrittenFarthestWins | Resolver.ThreeLevelNearestWins |

The rest of the model uses the corrected definitions `Resolver.MergeOrder` and `MeshBake.IsCube`.

## Left out

- Rotation: the matrix that turns every vertex about the block centre by the reference's `y` degrees (block.rs:248-251) and the floating-point corner positions (block.rs:358-365) are not modelled. Vertices carry their corner label. `ModelProperties.y` is carried but unused, and periodicity under a 360-degree turn is not stated.
- Triangle winding: the corners' geometric order within each triangle is float geometry and is not stated. The index layout is stated.
- Concurrency: the read locks on `uv_map` and `animated_texture_offsets`, and dropping them before `allocate`, are not modelled. The model is sequential.
- JSON parsing: it is folded into the provider, whose documents are `Parsed(model)` or `Malformed`. `JsonError` carries no parser message.
- Model schema: faces carry only their texture. Face rotation, UV override, cull face and tint index, and the model's display settings, are not read by the bake and are left out.
- Resource paths are plain strings. `prepend` and `append` are concatenation. Namespace handling of the path type is not part of this model.
- The merge of a model with its ancestors (an external library, block.rs:132) is ASSUMED to work like this: the chain lists the model first; for each texture variable the first model that defines it wins; elements come from the first model that has any; the result has no parent; a face texture `#k` of the merged elements is chased through the merged variables until it is concrete, names no variable, or would revisit a variable (a cycle), where it stops; texture variables themselves are not resolved during the merge.
- Texture-variable resolution (an external library, block.rs:138-139) is ASSUMED to look up the referenced variable once in the copy, without chasing further references.
- The two assumptions above about the external library, the multi-hop chase of face variables during the merge and the single lookup during texture-variable resolution, are independent of each other. Nothing in the source makes them consistent, and the model does not relate them.
- BlockAtlas.Atlas.Allocate: the atlas packing is external and not modelled. The body gives each new texture a stand-in rectangle. The contract states only what the engine relies on: keys are added, existing entries are kept, and calls are counted.
- `UnresolvedTextureReference` carries the offending key and value, not the formatted message. Which offending key is reported depends on hash-map order, so the contract only says it is one of them.
- A model without a parent is returned unchanged (block.rs:118-120), so its element faces that name `#k` are never looked up; the atlas never holds such a name, and those faces bake as absent. The model does the same.
- Reloading the ancestors after the walk (block.rs:128) uses the same provider, so in this model it cannot fail and has no abort outcome.
- `has_transparency` is always false in the engine (block.rs:436). The model keeps it as the constant `HasTransparency`.
- The JNI entity registration (`rust/wgpu-mc-jni/src/entity.rs`), the world-renderer hook, the asset download build step and the demo harness are not part of this model. They are plumbing, float UV arithmetic, rendering and I/O.

=== FILE: atlas.dfy ===
/** The block texture atlas as the baking engine sees it: the rectangle of
    every placed texture, the animation offset of animated ones, and the
    batch allocation that places new textures. */
module BlockAtlas {
  import opened Types

  /** The rectangle a stand-in placement gives a newly placed texture. */
  const PlacedUv: UV := ((0, 0), (16, 16))

  /** Every entry of `before` is in `after`, unchanged. */
  predicate Keeps<V(==)>(before: map<ResourcePath, V>, after: map<ResourcePath, V>) {
    forall t :: t in before ==> t in after && after[t] == before[t]
  }

  class Atlas {
    var uvMap: map<ResourcePath, UV>
    var animatedTextureOffsets: map<ResourcePath, u32>
    /** How many times `Allocate` has run on this atlas. */
    ghost var allocateCalls: nat

    constructor (uvMap: map<ResourcePath, UV>, animatedTextureOffsets: map<ResourcePath, u32>)
      ensures this.uvMap == uvMap && this.animatedTextureOffsets == animatedTextureOffsets
      ensures allocateCalls == 0
    {
      this.uvMap := uvMap;
      this.animatedTextureOffsets := animatedTextureOffsets;
      allocateCalls := 0;
    }

    /** Places every texture of the batch that the atlas does not hold yet.
        Entries are only ever added: a texture already placed keeps its
        rectangle and its animation offset. */
    method Allocate(textures: seq<(ResourcePath, seq<bv8>)>)
      modifies this
      ensures uvMap.Keys == old(uvMap.Keys) + (set i | 0 <= i < |textures| :: textures[i].0)
      ensures Keeps(old(uvMap), uvMap)
      ensures Keeps(old(animatedTextureOffsets), animatedTextureOffsets)
      ensures allocateCalls == old(allocateCalls) + 1
    {
      var ids := set i | 0 <= i < |textures| :: textures[i].0;
      uvMap := uvMap + map t | t in ids && t !in uvMap :: PlacedUv;
      allocateCalls := allocateCalls + 1;
    }
  }
}

=== FILE: bake.dfy ===
/** Baking the models of a block state into a `ModelMesh`: load and resolve
    each referenced model, reject unresolved texture variables, place missing
    textures in the atlas, bake every element and classify the model as a
    cube or a complex shape. */
module MeshBake {
  import opened Types
  import opened Resolver
  import opened Faces
  import opened BlockAtlas

  /** One model reference of a variant: the model id and its rotation about
      the vertical axis in degrees. */
  datatype ModelProperties = ModelProperties(model: string, y: int)

  /** A block-state variant with the model references it selects. */
  datatype Variant = Variant(models: seq<ModelProperties>)

  /** The model references of all variants, variant by variant: every
      reference of every variant, and nothing else. */
  function ModelRefs(variants: seq<Variant>): (r: seq<ModelProperties>)
    ensures forall i, j :: 0 <= i < |variants| && 0 <= j < |variants[i].models| ==> variants[i].models[j] in r
    ensures forall p :: p in r ==> exists i :: 0 <= i < |variants| && p in variants[i].models
  {
    if variants == [] then []
    else
      assert forall i :: 1 <= i < |variants| ==> variants[i] == variants[1..][i - 1];
      variants[0].models + ModelRefs(variants[1..])
  }

  /** One more variant appends its references after those of the earlier
      variants: the references keep the variants' order. */
  lemma {:induction false} ModelRefsAppend(variants: seq<Variant>, v: Variant)
    ensures ModelRefs(variants + [v]) == ModelRefs(variants) + v.models
  {
    if variants == [] {
      assert ModelRefs([v]) == v.models + ModelRefs([]);
    } else {
      assert (variants + [v])[1..] == variants[1..] + [v];
      ModelRefsAppend(variants[1..], v);
    }
  }

  datatype CubeOrComplexMesh =
    | Cube(faces: BlockModelFaces)
    | Complex(all: seq<BlockModelFaces>)

  /** Per model reference: the mesh and whether neighbouring blocks must
      still be rendered. */
  datatype ModelMesh = ModelMesh(models: seq<(CubeOrComplexMesh, bool)>)

  /* ---------------- classification ---------------- */

  /** An element spanning the whole block: from (0, 0, 0) to (16, 16, 16). */
  predicate IsFullCube(e: Element) {
    e.from == Vec3(0.0, 0.0, 0.0) && e.to == Vec3(16.0, 16.0, 16.0)
  }

  /** The elements of a model; a model without elements has none. */
  function ElementsOf(m: Model): seq<Element> {
    if m.elements.Some? then m.elements.value else []
  }

  /** The classification as the engine writes it: the length test counts the
      optional element list itself, so it holds whenever the model has an
      element list, and then only the first element is checked. */
  predicate IsCubeAsWritten(m: Model): (b: bool)
    ensures b <==> exists e, rest :: m.elements == Some([e] + rest) && IsFullCube(e)
  {
    if m.elements.Some? && |m.elements.value| > 0 then
      assert m.elements.value == [m.elements.value[0]] + m.elements.value[1..];
      IsFullCube(m.elements.value[0])
    else false
  }

  /** A cube: exactly one element, and it spans the whole block. Every cube
      passes the engine's test; the converse fails only for longer lists. */
  predicate IsCube(m: Model): (b: bool)
    ensures b ==> IsCubeAsWritten(m)
    ensures IsCubeAsWritten(m) && |ElementsOf(m)| == 1 ==> b
  {
    m.elements.Some? && |m.elements.value| == 1 && IsFullCube(m.elements.value[0])
  }

  /** The bake of each element, in order. */
  function BakeElements(es: seq<Element>, uvMap: map<ResourcePath, UV>, offsets: map<ResourcePath, u32>)
    : (r: seq<BlockModelFaces>)
    ensures |r| == |es|
    ensures forall i :: 0 <= i < |es| ==> r[i] == BakeElement(es[i], uvMap, offsets)
  {
    seq(|es|, i requires 0 <= i < |es| => BakeElement(es[i], uvMap, offsets))
  }

  /** Transparency detection is not implemented by the engine: no model counts as transparent. */
  const HasTransparency := false

  /** The engine's wrapping: with the classification as written, a cube takes
      the LAST element's faces (`pop`), and the others are dropped. */
  function WrapAsWritten(m: Model, uvMap: map<ResourcePath, UV>, offsets: map<ResourcePath, u32>)
    : (r: (CubeOrComplexMesh, bool))
    ensures r.1 == !IsCubeAsWritten(m)
  {
    var results := BakeElements(ElementsOf(m), uvMap, offsets);
    (if IsCubeAsWritten(m) then Cube(results[|results| - 1]) else Complex(results),
     !IsCubeAsWritten(m) || HasTransparency)
  }

  /** A full cube followed by any partial element (a slab, say) is taken for
      a cube: the mesh is the partial element's faces alone and neighbours
      are culled against it. */
  lemma CubeWithExtraElementAsWritten(slab: Element, uvMap: map<ResourcePath, UV>, offsets: map<ResourcePath, u32>)
    requires !IsFullCube(slab)
    ensures var full := Element(Vec3(0.0, 0.0, 0.0), Vec3(16.0, 16.0, 16.0), map[]);
      var m := Model(None, None, Some([full, slab]));
      && IsCubeAsWritten(m) && !IsCube(m)
      && WrapAsWritten(m, uvMap, offsets) == (Cube(BakeElement(slab, uvMap, offsets)), false)
  {
  }

  /** The classification of model `m` that a baked entry carries: neighbours
      are culled exactly for a cube, a cube is meshed as `Cube`, anything else
      as `Complex` with one mesh per element. */
  predicate Classified(entry: (CubeOrComplexMesh, bool), m: Model) {
    && entry.1 == !IsCube(m)
    && (entry.0.Cube? <==> IsCube(m))
    && (entry.0.Complex? ==> |entry.0.all| == |ElementsOf(m)|)
  }

  /** The wrapping with the classification corrected: a cube is the single
      full-size element's faces and culls its neighbours; anything else keeps
      one bake per element, in order, and lets neighbours render. */
  function Wrap(m: Model, uvMap: map<ResourcePath, UV>, offsets: map<ResourcePath, u32>)
    : (r: (CubeOrComplexMesh, bool))
    ensures Classified(r, m)
  {
    var results := BakeElements(ElementsOf(m), uvMap, offsets);
    (if IsCube(m) then Cube(results[|results| - 1]) else Complex(results),
     !IsCube(m) || HasTransparency)
  }

  /** What the wrapping holds: a cube is the bake of its single element;
      otherwise the bake of every element, in order. */
  lemma WrapContents(m: Model, uvMap: map<ResourcePath, UV>, offsets: map<ResourcePath, u32>)
    ensures var r := Wrap(m, uvMap, offsets);
      && (r.0.Cube? ==> r.0.faces == BakeElement(m.elements.value[0], uvMap, offsets))
      && (r.0.Complex? ==> forall i :: 0 <= i < |r.0.all| ==> r.0.all[i] == BakeElement(ElementsOf(m)[i], uvMap, offsets))
  {
  }

  /** One full-size element showing texture `t` on every face, with `t`
      placed at ((0, 0), (16, 16)) and not animated: the model bakes to a cube
      that lets its neighbours be culled, the up face shows the four corners
      of the rectangle, and the up and down faces carry their fixed triangles. */
  lemma FullCubeBake(t: ResourcePath)
    ensures
      var face := ElementFace(t);
      var e := Element(Vec3(0.0, 0.0, 0.0), Vec3(16.0, 16.0, 16.0),
                       map[North := face, East := face, South := face, West := face, Up := face, Down := face]);
      var m := Model(None, Some(map["all" := t]), Some([e]));
      var uvMap := map[t := ((0, 0), (16, 16))];
      var r := Wrap(m, uvMap, map[]);
      && r == (Cube(BakeElement(e, uvMap, map[])), false)
      && r.0.faces.up == Some([16, 17, 18, 16, 18, 19])
      && r.0.faces.down == Some([22, 21, 20, 20, 21, 23])
      && r.0.faces.vertices[16..20] == [
           BlockMeshVertex(D, (0, 16), (0, 1, 0), 0),
           BlockMeshVertex(C, (16, 16), (0, 1, 0), 0),
           BlockMeshVertex(G, (16, 0), (0, 1, 0), 0),
           BlockMeshVertex(H, (0, 0), (0, 1, 0), 0)]
  {
  }

  /* ---------------- loading and checking a model ---------------- */

  /** The parent walk of the model `prop` names ends. The engine's walk is
      unguarded, so a reference whose chain loops never finishes baking; only
      the chain of the referenced model is read. */
  ghost predicate RefChainEnds(prop: ModelProperties, P: ResourceProvider, depth: nat) {
    var path := ModelPath(prop.model);
    path in P.strings && P.strings[path].Parsed? ==> ChainEnds(P.strings[path].model, P, depth)
  }

  /** Loading a referenced model and resolving it: a missing document and a
      malformed one are reported errors; failures further up the parent chain
      abort. */
  function LoadAndResolve(prop: ModelProperties, P: ResourceProvider, ghost depth: nat): (r: Outcome<Model>)
    requires RefChainEnds(prop, P, depth)
    ensures ModelPath(prop.model) !in P.strings ==> r == Err(UnresolvedResourcePath(ModelPath(prop.model)))
    ensures ModelPath(prop.model) in P.strings && P.strings[ModelPath(prop.model)].Malformed? ==> r == Err(JsonError)
    ensures r.Err? ==> r.error.UnresolvedResourcePath? || r.error.JsonError?
  {
    var path := ModelPath(prop.model);
    if path !in P.strings then Err(UnresolvedResourcePath(path))
    else if P.strings[path].Malformed? then Err(JsonError)
    else Resolve(P.strings[path].model, P, depth)
  }

  /** Some texture variable of `m` still holds a reference. */
  predicate HasTextureReference(m: Model) {
    m.textures.Some? && exists k :: k in m.textures.value && IsReference(m.textures.value[k])
  }

  /** The texture ids a model's variables name. */
  function TextureIds(m: Model): set<ResourcePath> {
    if m.textures.Some? then m.textures.value.Values else {}
  }

  /** The model reference loads, resolves, and has only concrete textures. */
  ghost predicate Prepared(prop: ModelProperties, P: ResourceProvider, depth: nat)
    requires RefChainEnds(prop, P, depth)
  {
    LoadAndResolve(prop, P, depth).Ok? && !HasTextureReference(LoadAndResolve(prop, P, depth).value)
  }

  /** `e` is an error that baking `prop` may report. */
  ghost predicate FailsWith(prop: ModelProperties, P: ResourceProvider, depth: nat, e: MeshBakeError)
    requires RefChainEnds(prop, P, depth)
  {
    var lr := LoadAndResolve(prop, P, depth);
    || lr == Err(e)
    || (&& lr.Ok? && lr.value.textures.Some?
        && e.UnresolvedTextureReference? && e.key in lr.value.textures.value
        && lr.value.textures.value[e.key] == e.value && IsReference(e.value))
  }

  /** A texture of `m` that the atlas `uvMap` lacks and whose image is missing. */
  ghost predicate ImageMissing(m: Model, uvMap: map<ResourcePath, UV>, P: ResourceProvider, t: ResourcePath) {
    t in TextureIds(m) && t !in uvMap && TexturePath(t) !in P.bytes
  }

  /** `p` is an abort that baking `prop` against the atlas `uvMap` may run into. */
  ghost predicate AbortsWith(prop: ModelProperties, P: ResourceProvider, depth: nat, uvMap: map<ResourcePath, UV>, p: Panic)
    requires RefChainEnds(prop, P, depth)
  {
    || LoadAndResolve(prop, P, depth) == Panicked(p)
    || (&& Prepared(prop, P, depth)
        && exists t :: ImageMissing(LoadAndResolve(prop, P, depth).value, uvMap, P, t) && p == MissingTextureBytes(TexturePath(t)))
  }

  /** The first texture variable that still holds a reference, if any. */
  method FindReference(textures: map<string, string>) returns (found: Option<(string, string)>)
    ensures found.None? <==> forall k :: k in textures ==> !IsReference(textures[k])
    ensures found.Some? ==> found.value.0 in textures && textures[found.value.0] == found.value.1
    ensures found.Some? ==> IsReference(found.value.1)
  {
    var todo := textures.Keys;
    while todo != {}
      invariant todo <= textures.Keys
      invariant forall k :: k in textures && k !in todo ==> !IsReference(textures[k])
      decreases todo
    {
      var k :| k in todo;
      if IsReference(textures[k]) {
        return Some((k, textures[k]));
      }
      todo := todo - {k};
    }
    found := None;
  }

  /** The texture ids of the variables `keys`, in that order, whose texture
      the atlas lacks: one entry per such variable. */
  function MissingIds(keys: seq<string>, textures: map<string, string>, uvMap: map<ResourcePath, UV>): seq<ResourcePath>
    requires forall k :: k in keys ==> k in textures
  {
    if keys == [] then []
    else
      var k := keys[|keys| - 1];
      MissingIds(keys[..|keys| - 1], textures, uvMap) + (if textures[k] !in uvMap then [textures[k]] else [])
  }

  /** The variables among `keys` that name `t`, when the atlas lacks `t`. */
  function Naming(keys: seq<string>, textures: map<string, string>, uvMap: map<ResourcePath, UV>, t: ResourcePath): set<string>
    requires forall k :: k in keys ==> k in textures
  {
    set k | k in keys && textures[k] == t && t !in uvMap
  }

  /** Adding a new variable to `keys` adds it to `Naming` exactly when it
      names `t` and the atlas lacks `t`. */
  lemma NamingStep(front: seq<string>, k: string, textures: map<string, string>, uvMap: map<ResourcePath, UV>, t: ResourcePath)
    requires forall x :: x in front ==> x in textures
    requires k in textures && k !in front
    ensures |Naming(front + [k], textures, uvMap, t)| ==
            |Naming(front, textures, uvMap, t)| + (if textures[k] == t && t !in uvMap then 1 else 0)
  {
    var before := Naming(front, textures, uvMap, t);
    var after := Naming(front + [k], textures, uvMap, t);
    if textures[k] == t && t !in uvMap {
      assert after == before + {k};
    } else {
      assert after == before;
    }
  }

  /** Over distinct variables, an id occurs in `MissingIds` once for every
      variable naming it, and only when the atlas lacks it. */
  lemma {:induction false} MissingIdsCount(keys: seq<string>, textures: map<string, string>, uvMap: map<ResourcePath, UV>, t: ResourcePath)
    requires forall k :: k in keys ==> k in textures
    requires forall i, j :: 0 <= i < j < |keys| ==> keys[i] != keys[j]
    ensures multiset(MissingIds(keys, textures, uvMap))[t] == |Naming(keys, textures, uvMap, t)|
  {
    if keys != [] {
      var front := keys[..|keys| - 1];
      var k := keys[|keys| - 1];
      assert keys == front + [k];
      assert k !in front by {
        forall i | 0 <= i < |front| ensures front[i] != k {
          assert front[i] == keys[i];
        }
      }
      MissingIdsCount(front, textures, uvMap, t);
      NamingStep(front, k, textures, uvMap, t);
    }
  }

  /** `MissingIds` has at most one entry per variable. */
  lemma {:induction false} MissingIdsLength(keys: seq<string>, textures: map<string, string>, uvMap: map<ResourcePath, UV>)
    requires forall k :: k in keys ==> k in textures
    ensures |MissingIds(keys, textures, uvMap)| <= |keys|
  {
    if keys != [] {
      MissingIdsLength(keys[..|keys| - 1], textures, uvMap);
    }
  }

  /** When `keys` are all the variables, some variable names `t` with the
      atlas lacking it exactly when `t` is a lacking texture. */
  lemma NamingMembers(keys: seq<string>, textures: map<string, string>, uvMap: map<ResourcePath, UV>, t: ResourcePath)
    requires forall k :: k in keys <==> k in textures
    ensures |Naming(keys, textures, uvMap, t)| > 0 <==> t in textures.Values && t !in uvMap
  {
    var n := Naming(keys, textures, uvMap, t);
    if t in textures.Values && t !in uvMap {
      var k :| k in textures && textures[k] == t;
      assert k in n;
    }
  }

  /** The texture ids the variables name that the atlas does not hold: one
      entry per variable whose texture is missing, in the order `order` in
      which the variables are visited. */
  method CollectUnallocated(textures: map<string, string>, uvMap: map<ResourcePath, UV>)
    returns (ids: seq<ResourcePath>, ghost order: seq<string>)
    ensures forall k :: k in order <==> k in textures
    ensures forall i, j :: 0 <= i < j < |order| ==> order[i] != order[j]
    ensures ids == MissingIds(order, textures, uvMap)
    ensures forall t :: multiset(ids)[t] == |Naming(order, textures, uvMap, t)|
    ensures forall t :: t in ids <==> t in textures.Values && t !in uvMap
    ensures |ids| <= |textures|
  {
    ids := [];
    order := [];
    var todo := textures.Keys;
    while todo != {}
      invariant todo <= textures.Keys
      invariant forall k :: k in order <==> k in textures && k !in todo
      invariant forall i, j :: 0 <= i < j < |order| ==> order[i] != order[j]
      invariant ids == MissingIds(order, textures, uvMap)
      invariant |order| + |todo| == |textures.Keys|
      decreases todo
    {
      var k :| k in todo;
      assert (order + [k])[..|order|] == order;
      if textures[k] !in uvMap {
        ids := ids + [textures[k]];
      }
      order := order + [k];
      todo := todo - {k};
    }
    assert |textures| == |textures.Keys|;
    MissingIdsLength(order, textures, uvMap);
    forall t ensures multiset(ids)[t] == |Naming(order, textures, uvMap, t)| {
      MissingIdsCount(order, textures, uvMap, t);
    }
    forall t ensures t in ids <==> t in textures.Values && t !in uvMap {
      NamingMembers(order, textures, uvMap, t);
    }
  }

  /** The image bytes of every id in `ids`, in order; a missing image aborts. */
  method FetchTextureBytes(ids: seq<ResourcePath>, P: ResourceProvider)
    returns (r: Outcome<seq<(ResourcePath, seq<bv8>)>>)
    ensures !r.Err?
    ensures r.Ok? <==> forall i :: 0 <= i < |ids| ==> TexturePath(ids[i]) in P.bytes
    ensures r.Ok? ==> |r.value| == |ids|
    ensures r.Ok? ==> forall i :: 0 <= i < |ids| ==> r.value[i] == (ids[i], P.bytes[TexturePath(ids[i])])
    ensures r.Panicked? ==> exists i :: 0 <= i < |ids| && TexturePath(ids[i]) !in P.bytes
                                        && r.panic == MissingTextureBytes(TexturePath(ids[i]))
  {
    var batch: seq<(ResourcePath, seq<bv8>)> := [];
    var i := 0;
    while i < |ids|
      invariant 0 <= i <= |ids| && |batch| == i
      invariant forall j :: 0 <= j < i ==> TexturePath(ids[j]) in P.bytes
      invariant forall j :: 0 <= j < i ==> batch[j] == (ids[j], P.bytes[TexturePath(ids[j])])
    {
      var path := TexturePath(ids[i]);
      if path !in P.bytes {
        return Panicked(MissingTextureBytes(path));
      }
      batch := batch + [(ids[i], P.bytes[path])];
      i := i + 1;
    }
    r := Ok(batch);
  }

  /* ---------------- baking ---------------- */

  /** When `ids` are exactly the textures the atlas lacks, some image among
      them is missing exactly when some lacking texture has no image. */
  lemma MissingImageAmongIds(ids: seq<ResourcePath>, textures: map<string, string>, uvMap: map<ResourcePath, UV>, P: ResourceProvider)
    requires forall t :: t in ids <==> t in textures.Values && t !in uvMap
    ensures (exists i :: 0 <= i < |ids| && TexturePath(ids[i]) !in P.bytes) <==>
            (exists t :: t in textures.Values && t !in uvMap && TexturePath(t) !in P.bytes)
  {
    if exists t :: t in textures.Values && t !in uvMap && TexturePath(t) !in P.bytes {
      var t :| t in textures.Values && t !in uvMap && TexturePath(t) !in P.bytes;
      var i :| 0 <= i < |ids| && ids[i] == t;
    }
  }

  /** Placing a batch for exactly the textures the atlas lacks makes every
      texture a key. */
  lemma BatchCoversTextures(batch: seq<(ResourcePath, seq<bv8>)>, ids: seq<ResourcePath>, textures: map<string, string>, uvMap: map<ResourcePath, UV>)
    requires forall t :: t in ids <==> t in textures.Values && t !in uvMap
    requires |batch| == |ids| && forall i :: 0 <= i < |ids| ==> batch[i].0 == ids[i]
    ensures uvMap.Keys + (set i | 0 <= i < |batch| :: batch[i].0) == uvMap.Keys + textures.Values
  {
    assert (set i | 0 <= i < |batch| :: batch[i].0) == set t | t in ids by {
      forall t | t in ids ensures exists i :: 0 <= i < |batch| && batch[i].0 == t {
        var i :| 0 <= i < |ids| && ids[i] == t;
        assert batch[i].0 == t;
      }
    }
  }

  /** A batch for exactly the textures the atlas lacks is empty exactly when
      the atlas holds every texture. */
  lemma EmptyBatch(batch: seq<(ResourcePath, seq<bv8>)>, ids: seq<ResourcePath>, textures: map<string, string>, uvMap: map<ResourcePath, UV>)
    requires forall t :: t in ids <==> t in textures.Values && t !in uvMap
    requires |batch| == |ids|
    ensures |batch| == 0 <==> textures.Values <= uvMap.Keys
  {
    if |batch| > 0 {
      assert ids[0] in ids;
    } else {
      assert forall t :: t in textures.Values ==> t in uvMap by {
        assert ids == [];
      }
    }
  }

  /** The batch of textures the variables name that the atlas lacks, each
      with its image bytes; a missing image aborts. */
  method FetchMissing(textures: map<string, string>, uvMap: map<ResourcePath, UV>, P: ResourceProvider)
    returns (r: Outcome<seq<(ResourcePath, seq<bv8>)>>)
    ensures !r.Err?
    ensures r.Ok? <==> !exists t :: t in textures.Values && t !in uvMap && TexturePath(t) !in P.bytes
    ensures r.Panicked? ==>
      exists t :: && t in textures.Values && t !in uvMap && TexturePath(t) !in P.bytes
                  && r.panic == MissingTextureBytes(TexturePath(t))
    ensures r.Ok? ==> uvMap.Keys + (set i | 0 <= i < |r.value| :: r.value[i].0) == uvMap.Keys + textures.Values
    ensures r.Ok? ==> (|r.value| == 0 <==> textures.Values <= uvMap.Keys)
    ensures r.Ok? ==> forall i :: 0 <= i < |r.value| ==>
      TexturePath(r.value[i].0) in P.bytes && r.value[i].1 == P.bytes[TexturePath(r.value[i].0)]
  {
    var unallocated, order := CollectUnallocated(textures, uvMap);
    r := FetchTextureBytes(unallocated, P);
    MissingImageAmongIds(unallocated, textures, uvMap, P);
    if r.Panicked? {
      var i :| 0 <= i < |unallocated| && TexturePath(unallocated[i]) !in P.bytes
                && r.panic == MissingTextureBytes(TexturePath(unallocated[i]));
      assert unallocated[i] in unallocated;
      return;
    }
    BatchCoversTextures(r.value, unallocated, textures, uvMap);
    EmptyBatch(r.value, unallocated, textures, uvMap);
  }

  /** Places the textures the variables name that the atlas lacks, in one
      batch, and only when some are missing; a missing image aborts before
      the atlas changes. */
  method AllocateMissing(textures: map<string, string>, P: ResourceProvider, atlas: Atlas)
    returns (aborted: Option<Panic>)
    modifies atlas
    ensures aborted.Some? <==>
      exists t :: t in textures.Values && t !in old(atlas.uvMap) && TexturePath(t) !in P.bytes
    ensures aborted.Some? ==>
      exists t :: && t in textures.Values && t !in old(atlas.uvMap) && TexturePath(t) !in P.bytes
                  && aborted.value == MissingTextureBytes(TexturePath(t))
    // an abort, or nothing missing, leaves the atlas as it was
    ensures aborted.Some? || textures.Values <= old(atlas.uvMap).Keys ==>
      && atlas.uvMap == old(atlas.uvMap)
      && atlas.animatedTextureOffsets == old(atlas.animatedTextureOffsets)
      && atlas.allocateCalls == old(atlas.allocateCalls)
    ensures aborted.None? ==> atlas.uvMap.Keys == old(atlas.uvMap).Keys + textures.Values
    ensures aborted.None? && !(textures.Values <= old(atlas.uvMap).Keys) ==>
      atlas.allocateCalls == old(atlas.allocateCalls) + 1
    ensures Keeps(old(atlas.uvMap), atlas.uvMap)
    ensures Keeps(old(atlas.animatedTextureOffsets), atlas.animatedTextureOffsets)
  {
    var batch := FetchMissing(textures, atlas.uvMap, P);
    if batch.Panicked? {
      return Some(batch.panic);
    }
    if |batch.value| > 0 {
      atlas.Allocate(batch.value);
    }
    aborted := None;
  }

  /** Loads, resolves and checks one model reference and places its missing
      textures in the atlas; the resolved model is what gets meshed. */
  method PrepareModel(prop: ModelProperties, P: ResourceProvider, atlas: Atlas, ghost depth: nat)
    returns (r: Outcome<Model>)
    requires RefChainEnds(prop, P, depth)
    modifies atlas
    // loading and resolving failures pass through unchanged
    ensures LoadAndResolve(prop, P, depth).Err? ==> r == Err(LoadAndResolve(prop, P, depth).error)
    ensures LoadAndResolve(prop, P, depth).Panicked? ==> r == Panicked(LoadAndResolve(prop, P, depth).panic)
    // a variable still holding a reference is reported
    ensures LoadAndResolve(prop, P, depth).Ok? && HasTextureReference(LoadAndResolve(prop, P, depth).value) ==>
      r.Err? && r.error.UnresolvedTextureReference?
    ensures r.Err? ==> FailsWith(prop, P, depth, r.error)
    // a prepared model goes through unless the image of a texture it must place is missing
    ensures Prepared(prop, P, depth) ==>
      (r.Ok? <==> forall t :: !ImageMissing(LoadAndResolve(prop, P, depth).value, old(atlas.uvMap), P, t))
    ensures r.Panicked? ==> AbortsWith(prop, P, depth, atlas.uvMap, r.panic)
    ensures r.Ok? ==> Prepared(prop, P, depth) && r == LoadAndResolve(prop, P, depth)
    // the atlas changes only by one allocation of the model's missing textures
    ensures r.Ok? ==> atlas.uvMap.Keys == old(atlas.uvMap).Keys + TextureIds(r.value)
    ensures !r.Ok? || TextureIds(r.value) <= old(atlas.uvMap).Keys ==>
      && atlas.uvMap == old(atlas.uvMap)
      && atlas.animatedTextureOffsets == old(atlas.animatedTextureOffsets)
      && atlas.allocateCalls == old(atlas.allocateCalls)
    ensures r.Ok? && !(TextureIds(r.value) <= old(atlas.uvMap).Keys) ==>
      atlas.allocateCalls == old(atlas.allocateCalls) + 1
    ensures Keeps(old(atlas.uvMap), atlas.uvMap)
    ensures Keeps(old(atlas.animatedTextureOffsets), atlas.animatedTextureOffsets)
  {
    var path := ModelPath(prop.model);
    if path !in P.strings {
      return Err(UnresolvedResourcePath(path));
    }
    if P.strings[path].Malformed? {
      return Err(JsonError);
    }
    var resolved := ResolveModel(P.strings[path].model, P, depth);
    if !resolved.Ok? {
      return Panicked(resolved.panic);
    }
    var model := resolved.value;
    assert LoadAndResolve(prop, P, depth) == Ok(model);
    if model.textures.Some? {
      var textures := model.textures.value;
      var reference := FindReference(textures);
      if reference.Some? {
        return Err(UnresolvedTextureReference(reference.value.0, reference.value.1));
      }
      var aborted := AllocateMissing(textures, P, atlas);
      if aborted.Some? {
        ghost var t :| && t in textures.Values && t !in old(atlas.uvMap) && TexturePath(t) !in P.bytes
                       && aborted.value == MissingTextureBytes(TexturePath(t));
        assert ImageMissing(model, old(atlas.uvMap), P, t);
        return Panicked(aborted.value);
      }
    }
    r := Ok(model);
  }

  /** Reference `prop` bakes against the atlas `uvMap`: its chain ends, it is
      prepared, and every texture it names that `uvMap` lacks has an image. */
  ghost predicate BakesAgainst(prop: ModelProperties, P: ResourceProvider, depth: nat, uvMap: map<ResourcePath, UV>) {
    && RefChainEnds(prop, P, depth)
    && Prepared(prop, P, depth)
    && forall t :: !ImageMissing(LoadAndResolve(prop, P, depth).value, uvMap, P, t)
  }

  /** Every reference the bake reaches, that is every reference all of whose
      predecessors bake against the starting atlas `uvMap`, has a parent
      chain that ends. References after the first failure are never loaded,
      so nothing is demanded of them. */
  ghost predicate ReachedChainsEnd(refs: seq<ModelProperties>, P: ResourceProvider, depth: nat, uvMap: map<ResourcePath, UV>) {
    forall i :: 0 <= i < |refs| && (forall j :: 0 <= j < i ==> BakesAgainst(refs[j], P, depth, uvMap)) ==>
      RefChainEnds(refs[i], P, depth)
  }

  /** After a reference that fails to load, nothing more is demanded. */
  lemma UnreachedReferencesUnconstrained(refs: seq<ModelProperties>, P: ResourceProvider, depth: nat, uvMap: map<ResourcePath, UV>)
    requires |refs| > 0 && ModelPath(refs[0].model) !in P.strings
    requires forall i :: 1 <= i < |refs| ==> !RefChainEnds(refs[i], P, depth)
    ensures ReachedChainsEnd(refs, P, depth, uvMap)
  {
    assert !BakesAgainst(refs[0], P, depth, uvMap);
  }

  /** Texture `t` is named by one of the first `n` model references that
      load and resolve. */
  ghost predicate PlacedFor(refs: seq<ModelProperties>, n: nat, P: ResourceProvider, depth: nat, t: ResourcePath)
    requires n <= |refs|
  {
    exists j :: && 0 <= j < n && RefChainEnds(refs[j], P, depth)
                && LoadAndResolve(refs[j], P, depth).Ok? && t in TextureIds(LoadAndResolve(refs[j], P, depth).value)
  }

  lemma PlacedForStep(refs: seq<ModelProperties>, n: nat, P: ResourceProvider, depth: nat, t: ResourcePath)
    requires n < |refs| && RefChainEnds(refs[n], P, depth) && LoadAndResolve(refs[n], P, depth).Ok?
    ensures PlacedFor(refs, n + 1, P, depth, t) <==>
            PlacedFor(refs, n, P, depth, t) || t in TextureIds(LoadAndResolve(refs[n], P, depth).value)
  {
  }

  /** A texture placed for references that all bake against `u0` and that
      `u0` lacks has an image. */
  lemma PlacedImagePresent(refs: seq<ModelProperties>, n: nat, P: ResourceProvider, depth: nat,
                           u0: map<ResourcePath, UV>, t: ResourcePath)
    requires n <= |refs| && forall j :: 0 <= j < n ==> BakesAgainst(refs[j], P, depth, u0)
    requires PlacedFor(refs, n, P, depth, t) && t !in u0
    ensures TexturePath(t) in P.bytes
  {
    var j :| && 0 <= j < n && RefChainEnds(refs[j], P, depth)
             && LoadAndResolve(refs[j], P, depth).Ok? && t in TextureIds(LoadAndResolve(refs[j], P, depth).value);
    assert !ImageMissing(LoadAndResolve(refs[j], P, depth).value, u0, P, t);
  }

  /** A reference that bakes against the atlas after its predecessors baked
      also bakes against the starting atlas `u0`: what they placed had images. */
  lemma BakesAgainstStart(refs: seq<ModelProperties>, n: nat, P: ResourceProvider, depth: nat,
                          u0: map<ResourcePath, UV>, u1: map<ResourcePath, UV>)
    requires n < |refs| && forall j :: 0 <= j < n ==> BakesAgainst(refs[j], P, depth, u0)
    requires forall t :: t in u1 <==> t in u0 || PlacedFor(refs, n, P, depth, t)
    requires BakesAgainst(refs[n], P, depth, u1)
    ensures BakesAgainst(refs[n], P, depth, u0)
  {
    var m := LoadAndResolve(refs[n], P, depth).value;
    forall t ensures !ImageMissing(m, u0, P, t) {
      if t in TextureIds(m) && t !in u0 && t in u1 {
        PlacedImagePresent(refs, n, P, depth, u0, t);
      } else {
        assert !ImageMissing(m, u1, P, t);
      }
    }
  }

  /** An abort against a later atlas is one against any earlier atlas, and a
      reference that aborts does not bake. */
  lemma AbortsWithEarlier(prop: ModelProperties, P: ResourceProvider, depth: nat,
                          u0: map<ResourcePath, UV>, u1: map<ResourcePath, UV>, p: Panic)
    requires RefChainEnds(prop, P, depth) && forall t :: t in u0 ==> t in u1
    requires AbortsWith(prop, P, depth, u1, p)
    ensures AbortsWith(prop, P, depth, u0, p) && !BakesAgainst(prop, P, depth, u0)
  {
    if LoadAndResolve(prop, P, depth) != Panicked(p) {
      var t :| ImageMissing(LoadAndResolve(prop, P, depth).value, u1, P, t) && p == MissingTextureBytes(TexturePath(t));
      assert ImageMissing(LoadAndResolve(prop, P, depth).value, u0, P, t);
    }
  }

  /** A reference that reports an error does not bake. */
  lemma FailsNotBakes(prop: ModelProperties, P: ResourceProvider, depth: nat, u: map<ResourcePath, UV>, e: MeshBakeError)
    requires RefChainEnds(prop, P, depth) && FailsWith(prop, P, depth, e)
    ensures !BakesAgainst(prop, P, depth, u)
  {
    var lr := LoadAndResolve(prop, P, depth);
    if lr.Ok? && lr.value.textures.Some? && e.UnresolvedTextureReference? && e.key in lr.value.textures.value {
      assert HasTextureReference(lr.value);
    }
  }

  /** The entries `models` are the classified bakes of the first references
      in `refs`, each of which bakes against the starting atlas `u0`. */
  ghost predicate BakedPrefix(refs: seq<ModelProperties>, models: seq<(CubeOrComplexMesh, bool)>, P: ResourceProvider,
                              depth: nat, u0: map<ResourcePath, UV>)
  {
    && |models| <= |refs|
    && forall j :: 0 <= j < |models| ==>
         BakesAgainst(refs[j], P, depth, u0) && Classified(models[j], LoadAndResolve(refs[j], P, depth).value)
  }

  lemma BakedPrefixExtend(refs: seq<ModelProperties>, models: seq<(CubeOrComplexMesh, bool)>,
                          entry: (CubeOrComplexMesh, bool), P: ResourceProvider, depth: nat, u0: map<ResourcePath, UV>)
    requires BakedPrefix(refs, models, P, depth, u0) && |models| < |refs|
    requires BakesAgainst(refs[|models|], P, depth, u0)
    requires Classified(entry, LoadAndResolve(refs[|models|], P, depth).value)
    ensures BakedPrefix(refs, models + [entry], P, depth, u0)
  {
  }

  /** Reference `i` is the first that does not bake: every earlier one bakes
      against the starting atlas `u0`, and reference `i` reports the error `e`. */
  ghost predicate FirstFailsWith(refs: seq<ModelProperties>, i: int, P: ResourceProvider, depth: nat,
                                 u0: map<ResourcePath, UV>, e: MeshBakeError)
  {
    && 0 <= i < |refs|
    && (forall j :: 0 <= j < i ==> BakesAgainst(refs[j], P, depth, u0))
    && RefChainEnds(refs[i], P, depth)
    && FailsWith(refs[i], P, depth, e)
  }

  /** Reference `i` is the first that does not bake: every earlier one bakes
      against the starting atlas `u0`, and reference `i` aborts with `p`
      against it. */
  ghost predicate FirstAbortsWith(refs: seq<ModelProperties>, i: int, P: ResourceProvider, depth: nat,
                                  u0: map<ResourcePath, UV>, p: Panic)
  {
    && 0 <= i < |refs|
    && (forall j :: 0 <= j < i ==> BakesAgainst(refs[j], P, depth, u0))
    && RefChainEnds(refs[i], P, depth)
    && AbortsWith(refs[i], P, depth, u0, p)
  }

  /** Snapshots of the atlas, one per baked reference: the rectangles and
      animation offsets right after that reference was prepared. */
  type Snapshot = (map<ResourcePath, UV>, map<ResourcePath, u32>)

  /** Entry `i` is reference `i`'s model wrapped against snapshot `i`. */
  ghost predicate WrappedAgainst(refs: seq<ModelProperties>, models: seq<(CubeOrComplexMesh, bool)>, snaps: seq<Snapshot>,
                                 P: ResourceProvider, depth: nat)
  {
    forall i :: 0 <= i < |snaps| ==>
      && i < |refs| && i < |models| && RefChainEnds(refs[i], P, depth) && LoadAndResolve(refs[i], P, depth).Ok?
      && models[i] == Wrap(LoadAndResolve(refs[i], P, depth).value, snaps[i].0, snaps[i].1)
  }

  /** Snapshot `i` holds the starting keys `u0` and the textures of the
      references up to `i`, and keeps the starting entries `u0`/`o0`. */
  ghost predicate SnapshotKeys(refs: seq<ModelProperties>, snaps: seq<Snapshot>, P: ResourceProvider, depth: nat,
                               u0: map<ResourcePath, UV>, o0: map<ResourcePath, u32>)
  {
    forall i :: 0 <= i < |snaps| ==>
      && i < |refs|
      && (forall t :: t in snaps[i].0 <==> t in u0 || PlacedFor(refs, i + 1, P, depth, t))
      && Keeps(u0, snaps[i].0) && Keeps(o0, snaps[i].1)
  }

  /** Every snapshot's entries survive in the atlas `u`/`o`. */
  ghost predicate SnapshotsKept(snaps: seq<Snapshot>, u: map<ResourcePath, UV>, o: map<ResourcePath, u32>) {
    forall i :: 0 <= i < |snaps| ==> Keeps(snaps[i].0, u) && Keeps(snaps[i].1, o)
  }

  /** Entries kept in an atlas are kept in any atlas that keeps it. */
  lemma SnapshotsKeptGrow(snaps: seq<Snapshot>, u: map<ResourcePath, UV>, o: map<ResourcePath, u32>,
                          u': map<ResourcePath, UV>, o': map<ResourcePath, u32>)
    requires SnapshotsKept(snaps, u, o) && Keeps(u, u') && Keeps(o, o')
    ensures SnapshotsKept(snaps, u', o')
  {
    forall i | 0 <= i < |snaps| ensures Keeps(snaps[i].0, u') && Keeps(snaps[i].1, o') {
      assert Keeps(snaps[i].0, u) && Keeps(snaps[i].1, o);
    }
  }

  lemma WrappedAgainstExtend(refs: seq<ModelProperties>, models: seq<(CubeOrComplexMesh, bool)>, snaps: seq<Snapshot>,
                             P: ResourceProvider, depth: nat, entry: (CubeOrComplexMesh, bool), snap: Snapshot)
    requires WrappedAgainst(refs, models, snaps, P, depth)
    requires |models| == |snaps| < |refs| && RefChainEnds(refs[|snaps|], P, depth) && LoadAndResolve(refs[|snaps|], P, depth).Ok?
    requires entry == Wrap(LoadAndResolve(refs[|snaps|], P, depth).value, snap.0, snap.1)
    ensures WrappedAgainst(refs, models + [entry], snaps + [snap], P, depth)
  {
    var models', snaps' := models + [entry], snaps + [snap];
    forall i | 0 <= i < |snaps'|
      ensures && i < |refs| && i < |models'| && RefChainEnds(refs[i], P, depth) && LoadAndResolve(refs[i], P, depth).Ok?
              && models'[i] == Wrap(LoadAndResolve(refs[i], P, depth).value, snaps'[i].0, snaps'[i].1)
    {
      if i < |snaps| {
        assert models'[i] == models[i] && snaps'[i] == snaps[i];
      }
    }
  }

  lemma SnapshotKeysExtend(refs: seq<ModelProperties>, snaps: seq<Snapshot>, P: ResourceProvider, depth: nat,
                           u0: map<ResourcePath, UV>, o0: map<ResourcePath, u32>, snap: Snapshot)
    requires SnapshotKeys(refs, snaps, P, depth, u0, o0) && |snaps| < |refs|
    requires forall t :: t in snap.0 <==> t in u0 || PlacedFor(refs, |snaps| + 1, P, depth, t)
    requires Keeps(u0, snap.0) && Keeps(o0, snap.1)
    ensures SnapshotKeys(refs, snaps + [snap], P, depth, u0, o0)
  {
    var snaps' := snaps + [snap];
    forall i | 0 <= i < |snaps'|
      ensures && i < |refs|
              && (forall t :: t in snaps'[i].0 <==> t in u0 || PlacedFor(refs, i + 1, P, depth, t))
              && Keeps(u0, snaps'[i].0) && Keeps(o0, snaps'[i].1)
    {
      if i < |snaps| {
        assert snaps'[i] == snaps[i];
      }
    }
  }

  lemma SnapshotsKeptExtend(snaps: seq<Snapshot>, u: map<ResourcePath, UV>, o: map<ResourcePath, u32>)
    requires SnapshotsKept(snaps, u, o)
    ensures SnapshotsKept(snaps + [(u, o)], u, o)
  {
    var snaps' := snaps + [(u, o)];
    forall i | 0 <= i < |snaps'| ensures Keeps(snaps'[i].0, u) && Keeps(snaps'[i].1, o) {
      if i < |snaps| {
        assert snaps'[i] == snaps[i];
      }
    }
  }

  /** Prepares reference `i`, whose predecessors all baked against the
      starting atlas `u0` and placed their textures, and wraps its model
      against the atlas that preparing it leaves. A failure leaves the atlas
      as it was. */
  method BakeReference(refs: seq<ModelProperties>, i: nat, P: ResourceProvider, atlas: Atlas, ghost depth: nat,
                       ghost u0: map<ResourcePath, UV>)
    returns (r: Outcome<(CubeOrComplexMesh, bool)>)
    requires i < |refs| && RefChainEnds(refs[i], P, depth)
    requires forall j :: 0 <= j < i ==> BakesAgainst(refs[j], P, depth, u0)
    requires forall t :: t in atlas.uvMap <==> t in u0 || PlacedFor(refs, i, P, depth, t)
    modifies atlas
    ensures r.Err? ==> FirstFailsWith(refs, i, P, depth, u0, r.error) && !BakesAgainst(refs[i], P, depth, u0)
    ensures r.Panicked? ==> FirstAbortsWith(refs, i, P, depth, u0, r.panic) && !BakesAgainst(refs[i], P, depth, u0)
    ensures !r.Ok? ==> && atlas.uvMap == old(atlas.uvMap)
                       && atlas.animatedTextureOffsets == old(atlas.animatedTextureOffsets)
                       && atlas.allocateCalls == old(atlas.allocateCalls)
    ensures r.Ok? ==> && BakesAgainst(refs[i], P, depth, u0)
                      && r.value == Wrap(LoadAndResolve(refs[i], P, depth).value, atlas.uvMap, atlas.animatedTextureOffsets)
                      && forall t :: t in atlas.uvMap <==> t in u0 || PlacedFor(refs, i + 1, P, depth, t)
    ensures atlas.allocateCalls <= old(atlas.allocateCalls) + 1
    ensures Keeps(old(atlas.uvMap), atlas.uvMap)
    ensures Keeps(old(atlas.animatedTextureOffsets), atlas.animatedTextureOffsets)
  {
    ghost var before := atlas.uvMap;
    var model := PrepareModel(refs[i], P, atlas, depth);
    if model.Err? {
      FailsNotBakes(refs[i], P, depth, u0, model.error);
      assert FirstFailsWith(refs, i, P, depth, u0, model.error);
      return Err(model.error);
    }
    if model.Panicked? {
      AbortsWithEarlier(refs[i], P, depth, u0, atlas.uvMap, model.panic);
      assert FirstAbortsWith(refs, i, P, depth, u0, model.panic);
      return Panicked(model.panic);
    }
    assert BakesAgainst(refs[i], P, depth, before);
    BakesAgainstStart(refs, i, P, depth, u0, before);
    forall t ensures PlacedFor(refs, i + 1, P, depth, t) <==> PlacedFor(refs, i, P, depth, t) || t in TextureIds(model.value) {
      PlacedForStep(refs, i, P, depth, t);
    }
    r := Ok(Wrap(model.value, atlas.uvMap, atlas.animatedTextureOffsets));
  }

  /** Bakes every model reference of the variants, in order; the first
      failure ends the bake and no mesh is returned. */
  method Bake(variants: seq<Variant>, P: ResourceProvider, atlas: Atlas, ghost depth: nat)
    returns (r: Outcome<ModelMesh>, ghost snaps: seq<Snapshot>)
    requires ReachedChainsEnd(ModelRefs(variants), P, depth, atlas.uvMap)
    modifies atlas
    // one snapshot per reference baked before the bake ended
    ensures |snaps| <= |ModelRefs(variants)|
    ensures r.Ok? <==> forall i :: 0 <= i < |ModelRefs(variants)| ==>
      BakesAgainst(ModelRefs(variants)[i], P, depth, old(atlas.uvMap))
    ensures r.Ok? ==> |snaps| == |r.value.models| == |ModelRefs(variants)|
    ensures r.Ok? ==> forall i :: 0 <= i < |ModelRefs(variants)| ==>
      && BakesAgainst(ModelRefs(variants)[i], P, depth, old(atlas.uvMap))
      && r.value.models[i] == Wrap(LoadAndResolve(ModelRefs(variants)[i], P, depth).value, snaps[i].0, snaps[i].1)
      && Classified(r.value.models[i], LoadAndResolve(ModelRefs(variants)[i], P, depth).value)
    // the first failing reference is the one after the last snapshot
    ensures r.Err? ==> FirstFailsWith(ModelRefs(variants), |snaps|, P, depth, old(atlas.uvMap), r.error)
    ensures r.Panicked? ==> FirstAbortsWith(ModelRefs(variants), |snaps|, P, depth, old(atlas.uvMap), r.panic)
    // the atlas gained exactly the textures of the references baked
    ensures forall t :: t in atlas.uvMap <==>
      t in old(atlas.uvMap) || PlacedFor(ModelRefs(variants), |snaps|, P, depth, t)
    ensures forall i :: 0 <= i < |snaps| ==>
      && (forall t :: t in snaps[i].0 <==> t in old(atlas.uvMap) || PlacedFor(ModelRefs(variants), i + 1, P, depth, t))
      && Keeps(old(atlas.uvMap), snaps[i].0) && Keeps(snaps[i].0, atlas.uvMap)
      && Keeps(old(atlas.animatedTextureOffsets), snaps[i].1) && Keeps(snaps[i].1, atlas.animatedTextureOffsets)
    ensures atlas.allocateCalls <= old(atlas.allocateCalls) + |ModelRefs(variants)|
    ensures Keeps(old(atlas.uvMap), atlas.uvMap)
    ensures Keeps(old(atlas.animatedTextureOffsets), atlas.animatedTextureOffsets)
  {
    var refs := ModelRefs(variants);
    ghost var u0 := atlas.uvMap;
    var models: seq<(CubeOrComplexMesh, bool)> := [];
    snaps := [];
    var i := 0;
    while i < |refs|
      invariant 0 <= i <= |refs| && |models| == i && BakedPrefix(refs, models, P, depth, u0)
      invariant forall t :: t in atlas.uvMap <==> t in u0 || PlacedFor(refs, i, P, depth, t)
      invariant && atlas.allocateCalls <= old(atlas.allocateCalls) + i
                && Keeps(u0, atlas.uvMap)
                && Keeps(old(atlas.animatedTextureOffsets), atlas.animatedTextureOffsets)
      invariant |snaps| == i && WrappedAgainst(refs, models, snaps, P, depth)
      invariant SnapshotKeys(refs, snaps, P, depth, u0, old(atlas.animatedTextureOffsets))
      invariant SnapshotsKept(snaps, atlas.uvMap, atlas.animatedTextureOffsets)
    {
      ghost var before, beforeOffsets := atlas.uvMap, atlas.animatedTextureOffsets;
      var baked := BakeReference(refs, i, P, atlas, depth, u0);
      if baked.Err? {
        assert !BakesAgainst(ModelRefs(variants)[i], P, depth, old(atlas.uvMap));
        assert !forall k :: 0 <= k < |ModelRefs(variants)| ==> BakesAgainst(ModelRefs(variants)[k], P, depth, old(atlas.uvMap));
        return Err(baked.error), snaps;
      }
      if baked.Panicked? {
        assert !BakesAgainst(ModelRefs(variants)[i], P, depth, old(atlas.uvMap));
        assert !forall k :: 0 <= k < |ModelRefs(variants)| ==> BakesAgainst(ModelRefs(variants)[k], P, depth, old(atlas.uvMap));
        return Panicked(baked.panic), snaps;
      }
      var entry := baked.value;
      SnapshotsKeptGrow(snaps, before, beforeOffsets, atlas.uvMap, atlas.animatedTextureOffsets);
      BakedPrefixExtend(refs, models, entry, P, depth, u0);
      WrappedAgainstExtend(refs, models, snaps, P, depth, entry, (atlas.uvMap, atlas.animatedTextureOffsets));
      SnapshotKeysExtend(refs, snaps, P, depth, u0, old(atlas.animatedTextureOffsets), (atlas.uvMap, atlas.animatedTextureOffsets));
      SnapshotsKeptExtend(snaps, atlas.uvMap, atlas.animatedTextureOffsets);
      models := models + [entry];
      snaps := snaps + [(atlas.uvMap, atlas.animatedTextureOffsets)];
      i := i + 1;
    }
    r := Ok(ModelMesh(models));
  }
}

=== FILE: blockstate.dfy ===
/** The compact identity of a block state and the per-voxel state of a chunk. */
module BlockstateKeys {

  /** A block index and an augment (which baked mesh of that block), both 16-bit. */
  datatype BlockstateKey = BlockstateKey(block: bv16, augment: bv16) {

    /** The packed form: `block` in the high 16 bits, `augment` in the low 16 bits. */
    function Pack(): (n: bv32)
      ensures n >> 16 == block as bv32
      ensures n & 0xffff == augment as bv32
    {
      ((block as bv32) << 16) | (augment as bv32)
    }
  }

  /** The key made from a `(block, augment)` pair. */
  function FromPair(pair: (bv16, bv16)): (k: BlockstateKey)
    ensures k.block == pair.0 && k.augment == pair.1
  {
    BlockstateKey(pair.0, pair.1)
  }

  /** Unpacks a 32-bit value: the high half is the block, the low half the augment. */
  function FromU32(n: bv32): (k: BlockstateKey)
    ensures k.block as bv32 == n >> 16
    ensures k.augment as bv32 == n & 0xffff
  {
    FromPair(((n >> 16) as bv16, (n & 0xffff) as bv16))
  }

  /** Unpacking a packed key gives the key back. */
  lemma UnpackPack(k: BlockstateKey)
    ensures FromU32(k.Pack()) == k
  {
  }

  /** Packing an unpacked value gives the value back: every 32-bit value is a key. */
  lemma PackUnpack(n: bv32)
    ensures FromU32(n).Pack() == n
  {
  }

  /** The contents of one voxel as a chunk mesher sees it. */
  datatype ChunkBlockState = Air | State(key: BlockstateKey) {

    predicate IsAir() {
      Air?
    }
  }

  /** A voxel is air exactly when it carries no block state key. */
  lemma IsAirIffNoKey(s: ChunkBlockState)
    ensures s.IsAir() <==> forall k: BlockstateKey :: s != State(k)
  {
    if !s.IsAir() {
      assert s == State(s.key);
    }
  }
}

=== FILE: faces.dfy ===
/** The bake of one element: its fixed 24-vertex table (six faces of four
    vertices, grouped south, west, north, east, up, down) and, per face, the
    fixed six-index triangle pattern or nothing. */
module Faces {
  import opened Types

  /** The eight corners of an element, named as the engine names them. */
  datatype Corner = A | B | C | D | E | F | G | H

  /** Which bound a corner takes on each axis (x, y, z): true for `to`, false for `from`. */
  function CornerChoice(c: Corner): (bool, bool, bool) {
    match c
    case A => (false, false, false)
    case B => (true, false, false)
    case C => (true, true, false)
    case D => (false, true, false)
    case E => (false, false, true)
    case F => (true, false, true)
    case G => (true, true, true)
    case H => (false, true, true)
  }

  /** Does corner `c` lie in the plane of face `f`? South and north are the
      `to` and `from` planes of z, west and east those of x, up and down those of y. */
  predicate OnFacePlane(c: Corner, f: Face) {
    var (x, y, z) := CornerChoice(c);
    match f
    case South => z
    case North => !z
    case West => x
    case East => !x
    case Up => y
    case Down => !y
  }

  /** Where the four vertices of a face start in the 24-vertex table. */
  function GroupBase(f: Face): nat {
    match f
    case South => 0
    case West => 4
    case North => 8
    case East => 12
    case Up => 16
    case Down => 20
  }

  /** The outward normal of a face, in the engine's vertex space (x mirrored). */
  function FaceNormal(f: Face): (int, int, int) {
    match f
    case South => (0, 0, 1)
    case West => (-1, 0, 0)
    case North => (0, 0, -1)
    case East => (1, 0, 0)
    case Up => (0, 1, 0)
    case Down => (0, -1, 0)
  }

  /** Which texture corner a face shows at a corner of the element:
      (takes u1 rather than u0, takes v1 rather than v0). On the four side
      faces v0, the top of the texture, sits at the top (y = `to`). */
  function TexCorner(f: Face, c: Corner): (bool, bool) {
    var (x, y, z) := CornerChoice(c);
    match f
    case South => (!x, !y)
    case West => (z, !y)
    case North => (x, !y)
    case East => (!z, !y)
    case Up => (x, !z)
    case Down => (!x, z)
  }

  /** The corner of rectangle `uv` that `choice` selects. */
  function UvCorner(uv: UV, choice: (bool, bool)): (u16, u16) {
    (if choice.0 then uv.1.0 else uv.0.0, if choice.1 then uv.1.1 else uv.0.1)
  }

  /** One vertex. The position is the element corner it sits on; the rotation
      about the block centre that the engine applies to it is not modelled. */
  datatype BlockMeshVertex = BlockMeshVertex(
    position: Corner,
    texCoords: (u16, u16),
    normal: (int, int, int),
    animationUvOffset: u32)

  /** The bake of one element. */
  datatype BlockModelFaces = BlockModelFaces(
    vertices: seq<BlockMeshVertex>,
    north: Option<seq<u32>>,
    east: Option<seq<u32>>,
    south: Option<seq<u32>>,
    west: Option<seq<u32>>,
    up: Option<seq<u32>>,
    down: Option<seq<u32>>)

  /** The index array of face `f`. */
  function Indices(faces: BlockModelFaces, f: Face): Option<seq<u32>> {
    match f
    case North => faces.north
    case East => faces.east
    case South => faces.south
    case West => faces.west
    case Up => faces.up
    case Down => faces.down
  }

  /** The `k`-th vertex of face `f`. */
  function VertexOf(faces: BlockModelFaces, f: Face, k: nat): BlockMeshVertex
    requires |faces.vertices| == 24 && k < 4
  {
    faces.vertices[GroupBase(f) + k]
  }

  /** Two triangles over the four vertices `base` .. `base + 3`: six entries,
      all inside that block, each triangle with three different vertices, and
      all four vertices used (so the triangles share one edge). */
  predicate QuadIndices(ix: seq<u32>, base: nat) {
    && |ix| == 6
    && (forall j :: 0 <= j < 6 ==> base <= ix[j] as int < base + 4)
    && (forall v: u32 :: base <= v as int < base + 4 ==> v in ix)
    && ix[0] != ix[1] && ix[1] != ix[2] && ix[0] != ix[2]
    && ix[3] != ix[4] && ix[4] != ix[5] && ix[3] != ix[5]
  }

  /** The atlas rectangle of a face's texture, if the atlas holds it. */
  function GetAtlasUv(face: ElementFace, uvMap: map<ResourcePath, UV>): (r: Option<UV>)
    ensures r.Some? <==> face.texture in uvMap
    ensures r.Some? ==> r.value == uvMap[face.texture]
  {
    if face.texture in uvMap then Some(uvMap[face.texture]) else None
  }

  /** A face's atlas rectangle and animation offset: present when the element
      defines the face and the atlas holds its texture; the offset is 0 for a
      texture that is not animated. */
  function FaceTexture(e: Element, f: Face, uvMap: map<ResourcePath, UV>, offsets: map<ResourcePath, u32>)
    : (r: Option<(UV, u32)>)
    ensures r.Some? <==> f in e.faces && e.faces[f].texture in uvMap
    ensures r.Some? ==> r.value.0 == uvMap[e.faces[f].texture]
    ensures r.Some? ==> var t := e.faces[f].texture; r.value.1 == if t in offsets then offsets[t] else 0
  {
    if f !in e.faces then None
    else
      var tex := e.faces[f];
      match GetAtlasUv(tex, uvMap)
      case None => None
      case Some(uv) => Some((uv, if tex.texture in offsets then offsets[tex.texture] else 0))
  }

  /** The placeholder of an absent face: a zero rectangle and offset. */
  const NoUv: (UV, u32) := (((0, 0), (0, 0)), 0)

  /** What a face's vertices carry: its texture entry, or the placeholder. */
  function FaceEntry(e: Element, f: Face, uvMap: map<ResourcePath, UV>, offsets: map<ResourcePath, u32>): (UV, u32) {
    match FaceTexture(e, f, uvMap, offsets)
    case Some(entry) => entry
    case None => NoUv
  }

  /** The four vertices of face `f`, carrying the texture entry `t`, in the
      order the engine lists them. */
  function FaceVertices(f: Face, t: (UV, u32)): (r: seq<BlockMeshVertex>)
    ensures |r| == 4
  {
    var ((u0, v0), (u1, v1)) := t.0;
    match f
    case South => [
      BlockMeshVertex(E, (u1, v1), (0, 0, 1), t.1),
      BlockMeshVertex(F, (u0, v1), (0, 0, 1), t.1),
      BlockMeshVertex(G, (u0, v0), (0, 0, 1), t.1),
      BlockMeshVertex(H, (u1, v0), (0, 0, 1), t.1)]
    case West => [
      BlockMeshVertex(B, (u0, v1), (-1, 0, 0), t.1),
      BlockMeshVertex(C, (u0, v0), (-1, 0, 0), t.1),
      BlockMeshVertex(G, (u1, v0), (-1, 0, 0), t.1),
      BlockMeshVertex(F, (u1, v1), (-1, 0, 0), t.1)]
    case North => [
      BlockMeshVertex(A, (u0, v1), (0, 0, -1), t.1),
      BlockMeshVertex(B, (u1, v1), (0, 0, -1), t.1),
      BlockMeshVertex(C, (u1, v0), (0, 0, -1), t.1),
      BlockMeshVertex(D, (u0, v0), (0, 0, -1), t.1)]
    case East => [
      BlockMeshVertex(H, (u0, v0), (1, 0, 0), t.1),
      BlockMeshVertex(E, (u0, v1), (1, 0, 0), t.1),
      BlockMeshVertex(A, (u1, v1), (1, 0, 0), t.1),
      BlockMeshVertex(D, (u1, v0), (1, 0, 0), t.1)]
    case Up => [
      BlockMeshVertex(D, (u0, v1), (0, 1, 0), t.1),
      BlockMeshVertex(C, (u1, v1), (0, 1, 0), t.1),
      BlockMeshVertex(G, (u1, v0), (0, 1, 0), t.1),
      BlockMeshVertex(H, (u0, v0), (0, 1, 0), t.1)]
    case Down => [
      BlockMeshVertex(B, (u0, v0), (0, -1, 0), t.1),
      BlockMeshVertex(E, (u1, v1), (0, -1, 0), t.1),
      BlockMeshVertex(A, (u1, v0), (0, -1, 0), t.1),
      BlockMeshVertex(F, (u0, v1), (0, -1, 0), t.1)]
  }

  /** The six indices (two triangles) the engine draws face `f` with. */
  function IndexPattern(f: Face): seq<u32> {
    match f
    case North => [9, 11, 8, 10, 11, 9]
    case East => [13, 15, 12, 14, 15, 13]
    case South => [0, 3, 1, 1, 3, 2]
    case West => [4, 7, 5, 5, 7, 6]
    case Up => [16, 17, 18, 16, 18, 19]
    case Down => [22, 21, 20, 20, 21, 23]
  }

  /** The bake of one element against the atlas state `uvMap`, `offsets`. */
  function BakeElement(e: Element, uvMap: map<ResourcePath, UV>, offsets: map<ResourcePath, u32>)
    : (r: BlockModelFaces)
    ensures |r.vertices| == 24
  {
    BlockModelFaces(
      FaceVertices(South, FaceEntry(e, South, uvMap, offsets))
        + FaceVertices(West, FaceEntry(e, West, uvMap, offsets))
        + FaceVertices(North, FaceEntry(e, North, uvMap, offsets))
        + FaceVertices(East, FaceEntry(e, East, uvMap, offsets))
        + FaceVertices(Up, FaceEntry(e, Up, uvMap, offsets))
        + FaceVertices(Down, FaceEntry(e, Down, uvMap, offsets)),
      if FaceTexture(e, North, uvMap, offsets).Some? then Some(IndexPattern(North)) else None,
      if FaceTexture(e, East, uvMap, offsets).Some? then Some(IndexPattern(East)) else None,
      if FaceTexture(e, South, uvMap, offsets).Some? then Some(IndexPattern(South)) else None,
      if FaceTexture(e, West, uvMap, offsets).Some? then Some(IndexPattern(West)) else None,
      if FaceTexture(e, Up, uvMap, offsets).Some? then Some(IndexPattern(Up)) else None,
      if FaceTexture(e, Down, uvMap, offsets).Some? then Some(IndexPattern(Down)) else None)
  }

  /** The vertices of face `f` in the bake are those `FaceVertices` lists for
      its texture entry. */
  lemma VertexGroup(e: Element, uvMap: map<ResourcePath, UV>, offsets: map<ResourcePath, u32>, f: Face, k: nat)
    requires k < 4
    ensures VertexOf(BakeElement(e, uvMap, offsets), f, k) == FaceVertices(f, FaceEntry(e, f, uvMap, offsets))[k]
  {
    var vs := BakeElement(e, uvMap, offsets).vertices;
    var s := FaceVertices(South, FaceEntry(e, South, uvMap, offsets));
    var w := FaceVertices(West, FaceEntry(e, West, uvMap, offsets));
    var n := FaceVertices(North, FaceEntry(e, North, uvMap, offsets));
    var ea := FaceVertices(East, FaceEntry(e, East, uvMap, offsets));
    var u := FaceVertices(Up, FaceEntry(e, Up, uvMap, offsets));
    var d := FaceVertices(Down, FaceEntry(e, Down, uvMap, offsets));
    assert vs == s + w + n + ea + u + d;
    match f
    case South => assert vs[k] == s[k];
    case West => assert vs[4 + k] == w[k];
    case North => assert vs[8 + k] == n[k];
    case East => assert vs[12 + k] == ea[k];
    case Up => assert vs[16 + k] == u[k];
    case Down => assert vs[20 + k] == d[k];
  }

  /** A face has an index array exactly when the element defines it and the
      atlas holds its texture. */
  lemma FacePresence(e: Element, uvMap: map<ResourcePath, UV>, offsets: map<ResourcePath, u32>, f: Face)
    ensures Indices(BakeElement(e, uvMap, offsets), f).Some? <==> FaceTexture(e, f, uvMap, offsets).Some?
  {
  }

  /** Each present face carries the two-triangle pattern over its own four
      vertices. */
  lemma FaceIndicesLayout(e: Element, uvMap: map<ResourcePath, UV>, offsets: map<ResourcePath, u32>, f: Face)
    ensures var r := BakeElement(e, uvMap, offsets);
      Indices(r, f).Some? ==> QuadIndices(Indices(r, f).value, GroupBase(f))
  {
    var r := BakeElement(e, uvMap, offsets);
    if Indices(r, f).Some? {
      assert Indices(r, f).value == IndexPattern(f);
      IndexPatternIsQuad(f);
    }
  }

  /** Each face's pattern is two triangles over its own four vertices. */
  lemma IndexPatternIsQuad(f: Face)
    ensures QuadIndices(IndexPattern(f), GroupBase(f))
  {
    var ix := IndexPattern(f);
    var b := GroupBase(f);
    assert ix[0] in ix && ix[1] in ix && ix[2] in ix && ix[3] in ix && ix[4] in ix && ix[5] in ix;
    forall v: u32 | b <= v as int < b + 4 ensures v in ix {
      assert v as int == b || v as int == b + 1 || v as int == b + 2 || v as int == b + 3;
    }
  }

  /** The `k`-th vertex of face `f` sits on a corner in the plane of `f`,
      carries the normal of `f`, the animation offset of `f`'s texture, and
      the corner of `f`'s atlas rectangle that the corner selects. */
  lemma FaceVertexLayout(e: Element, uvMap: map<ResourcePath, UV>, offsets: map<ResourcePath, u32>, f: Face, k: nat)
    requires k < 4
    ensures var v := VertexOf(BakeElement(e, uvMap, offsets), f, k);
      var entry := FaceEntry(e, f, uvMap, offsets);
      && v.normal == FaceNormal(f)
      && OnFacePlane(v.position, f)
      && v.animationUvOffset == entry.1
      && v.texCoords == UvCorner(entry.0, TexCorner(f, v.position))
  {
    VertexGroup(e, uvMap, offsets, f, k);
    FaceVerticesLayout(f, FaceEntry(e, f, uvMap, offsets), k);
  }

  /** `FaceVertexLayout` for the vertex list of one face alone. */
  lemma FaceVerticesLayout(f: Face, t: (UV, u32), k: nat)
    requires k < 4
    ensures var v := FaceVertices(f, t)[k];
      && v.normal == FaceNormal(f)
      && OnFacePlane(v.position, f)
      && v.animationUvOffset == t.1
      && v.texCoords == UvCorner(t.0, TexCorner(f, v.position))
  {
  }

  /** The four vertices of a face sit on four different corners. */
  lemma FaceCornersDistinct(e: Element, uvMap: map<ResourcePath, UV>, offsets: map<ResourcePath, u32>, f: Face, j: nat, k: nat)
    requires j < k < 4
    ensures var r := BakeElement(e, uvMap, offsets);
      VertexOf(r, f, j).position != VertexOf(r, f, k).position
  {
    VertexGroup(e, uvMap, offsets, f, j);
    VertexGroup(e, uvMap, offsets, f, k);
    FaceVerticesDistinct(f, FaceEntry(e, f, uvMap, offsets), j, k);
  }

  /** `FaceCornersDistinct` for the vertex list of one face alone. */
  lemma FaceVerticesDistinct(f: Face, t: (UV, u32), j: nat, k: nat)
    requires j < k < 4
    ensures FaceVertices(f, t)[j].position != FaceVertices(f, t)[k].position
  {
  }

  /** An absent face's vertices carry a zero texture corner and offset 0. */
  lemma AbsentFaceZeroed(e: Element, uvMap: map<ResourcePath, UV>, offsets: map<ResourcePath, u32>, f: Face, k: nat)
    requires k < 4 && FaceTexture(e, f, uvMap, offsets).None?
    ensures var v := VertexOf(BakeElement(e, uvMap, offsets), f, k);
      v.texCoords == (0, 0) && v.animationUvOffset == 0
  {
    FaceVertexLayout(e, uvMap, offsets, f, k);
  }
}

=== FILE: resolver.dfy ===
/** Model resolution: collecting a model's ancestors by following `parent`
    links, merging the model with them, and one pass of texture-variable
    substitution. */
module Resolver {
  import opened Types

  /* ---------------- the parent walk ---------------- */

  /** The walk from `m` along `parent` links stops within `depth` links: at a
      model without a parent, or at a parent the walk cannot load (where it
      aborts). The walk itself has no guard, so its callers must supply this. */
  ghost predicate ChainEnds(m: Model, P: ResourceProvider, depth: nat)
    decreases depth
  {
    match m.parent
    case None => true
    case Some(id) =>
      var p := ModelPath(id);
      p !in P.strings || P.strings[p].Malformed? ||
      (depth > 0 && ChainEnds(P.strings[p].model, P, depth - 1))
  }

  /** The ancestor paths of `m`, farthest ancestor first and the immediate
      parent last, or the abort that a missing or malformed ancestor causes. */
  function AncestorPaths(m: Model, P: ResourceProvider, ghost depth: nat): (r: Outcome<seq<ResourcePath>>)
    requires ChainEnds(m, P, depth)
    ensures !r.Err?
    ensures m.parent.None? ==> r == Ok([])
    ensures r.Ok? && m.parent.Some? ==> |r.value| > 0 && r.value[|r.value| - 1] == ModelPath(m.parent.value)
    decreases depth
  {
    match m.parent
    case None => Ok([])
    case Some(id) =>
      var p := ModelPath(id);
      if p !in P.strings then Panicked(MissingParentModel(p))
      else if P.strings[p].Malformed? then Panicked(MalformedParentModel(p))
      else
        var inner := AncestorPaths(P.strings[p].model, P, depth - 1);
        if inner.Ok? then Ok(inner.value + [p]) else inner
  }

  /** `paths` is exactly the ancestor chain of `m` in provider `P`, farthest
      first: every entry is a parsable document, the first has no parent, each
      entry is the parent of the next, and the last is the parent of `m`. */
  ghost predicate ParentLinked(m: Model, P: ResourceProvider, paths: seq<ResourcePath>) {
    && (forall i :: 0 <= i < |paths| ==> paths[i] in P.strings && P.strings[paths[i]].Parsed?)
    && (|paths| == 0 <==> m.parent.None?)
    && (|paths| > 0 ==> m.parent.Some? && paths[|paths| - 1] == ModelPath(m.parent.value))
    && (|paths| > 0 ==> P.strings[paths[0]].model.parent.None?)
    && (forall i :: 0 <= i < |paths| - 1 ==> ParentIs(P, paths[i + 1], paths[i]))
  }

  /** The document at `child` names the model at `parent` as its parent. */
  ghost predicate ParentIs(P: ResourceProvider, child: ResourcePath, parent: ResourcePath) {
    && child in P.strings && P.strings[child].Parsed?
    && P.strings[child].model.parent.Some?
    && parent == ModelPath(P.strings[child].model.parent.value)
  }

  /** A successful walk yields the ancestor chain, one entry per ancestor. */
  lemma {:induction false} AncestorPathsLinked(m: Model, P: ResourceProvider, depth: nat)
    requires ChainEnds(m, P, depth)
    requires AncestorPaths(m, P, depth).Ok?
    ensures ParentLinked(m, P, AncestorPaths(m, P, depth).value)
    decreases depth
  {
    if m.parent.Some? {
      var p := ModelPath(m.parent.value);
      var pm := P.strings[p].model;
      AncestorPathsLinked(pm, P, depth - 1);
      var ps := AncestorPaths(pm, P, depth - 1).value;
      var paths := ps + [p];
      assert AncestorPaths(m, P, depth).value == paths;
      forall i | 0 <= i < |paths| - 1
        ensures ParentIs(P, paths[i + 1], paths[i])
      {
        if i + 1 == |ps| {
          assert paths[i + 1] == p && paths[i] == ps[|ps| - 1];
        } else {
          assert paths[i] == ps[i] && paths[i + 1] == ps[i + 1];
        }
      }
    }
  }

  /** Every path the walk yields names a parsable document. */
  lemma AncestorPathsLoadable(m: Model, P: ResourceProvider, depth: nat)
    requires ChainEnds(m, P, depth)
    requires AncestorPaths(m, P, depth).Ok?
    ensures var ps := AncestorPaths(m, P, depth).value;
      forall i :: 0 <= i < |ps| ==> ps[i] in P.strings && P.strings[ps[i]].Parsed?
  {
    AncestorPathsLinked(m, P, depth);
  }

  /** Conversely, an ancestor chain is what the walk yields: the walk is the
      only way to read the chain. */
  lemma {:induction false} LinkedIsAncestorPaths(m: Model, P: ResourceProvider, depth: nat, paths: seq<ResourcePath>)
    requires ChainEnds(m, P, depth)
    requires ParentLinked(m, P, paths)
    ensures AncestorPaths(m, P, depth) == Ok(paths)
    decreases depth
  {
    if m.parent.Some? {
      var p := ModelPath(m.parent.value);
      var n := |paths|;
      assert paths[n - 1] == p;
      var pm := P.strings[p].model;
      var rest := paths[..n - 1];
      assert ParentLinked(pm, P, rest) by {
        if n - 1 > 0 {
          assert pm == P.strings[paths[n - 1]].model;
          assert ParentIs(P, paths[n - 1], paths[n - 2]);
        } else {
          assert paths[0] == p;
        }
        forall i | 0 <= i < |rest| - 1
          ensures ParentIs(P, rest[i + 1], rest[i])
        {
          assert rest[i] == paths[i] && rest[i + 1] == paths[i + 1];
        }
      }
      LinkedIsAncestorPaths(pm, P, depth - 1, rest);
      assert rest + [p] == paths;
    }
  }

  /** The walk as the engine performs it: recursing into each parent before
      pushing the parent's path onto the accumulator `models`. */
  method RecurseModelParents(m: Model, P: ResourceProvider, models: seq<ResourcePath>, ghost depth: nat)
    returns (r: Outcome<seq<ResourcePath>>)
    requires ChainEnds(m, P, depth)
    ensures AncestorPaths(m, P, depth).Ok? ==> r == Ok(models + AncestorPaths(m, P, depth).value)
    ensures AncestorPaths(m, P, depth).Panicked? ==> r == AncestorPaths(m, P, depth)
    decreases depth
  {
    match m.parent {
      case None =>
        assert models + [] == models;
        r := Ok(models);
      case Some(id) =>
        var parentPath := ModelPath(id);
        if parentPath !in P.strings {
          return Panicked(MissingParentModel(parentPath));
        }
        if P.strings[parentPath].Malformed? {
          return Panicked(MalformedParentModel(parentPath));
        }
        var inner := RecurseModelParents(P.strings[parentPath].model, P, models, depth - 1);
        if !inner.Ok? {
          return inner;
        }
        ghost var ps := AncestorPaths(P.strings[parentPath].model, P, depth - 1).value;
        assert inner.value + [parentPath] == models + (ps + [parentPath]);
        r := Ok(inner.value + [parentPath]);
    }
  }

  /** The documents at `paths`, in order. */
  function LoadAll(paths: seq<ResourcePath>, P: ResourceProvider): (ms: seq<Model>)
    requires forall i :: 0 <= i < |paths| ==> paths[i] in P.strings && P.strings[paths[i]].Parsed?
    ensures |ms| == |paths|
    ensures forall i :: 0 <= i < |paths| ==> ms[i] == P.strings[paths[i]].model
  {
    seq(|paths|, i requires 0 <= i < |paths| => P.strings[paths[i]].model)
  }

  /* ---------------- the merge ---------------- */

  /* The merge of a model with its ancestors is performed by an external
     library. This model assumes the following behaviour: the sequence lists
     the model itself first and then its ancestors nearest first; for every
     texture variable the first model that defines it wins; the elements are
     those of the first model that has any, and a face naming a variable is
     chased through the merged variables to a concrete texture (stopping at a
     missing variable or a cycle); the result has no parent. */

  /** The merged texture variables, or None when no model in the chain has any. */
  function MergeTextures(chain: seq<Model>): (r: Option<map<string, string>>)
    ensures r.Some? <==> exists i :: 0 <= i < |chain| && chain[i].textures.Some?
  {
    if chain == [] then None
    else
      var rest := MergeTextures(chain[1..]);
      assert forall i :: 1 <= i < |chain| ==> chain[i] == chain[1..][i - 1];
      match chain[0].textures
      case None => rest
      case Some(t) => if rest.None? then Some(t) else Some(rest.value + t)
  }

  /** The elements of the first model in the chain that has elements. */
  function FirstElements(chain: seq<Model>): (r: Option<seq<Element>>)
    ensures r.Some? <==> exists i :: 0 <= i < |chain| && chain[i].elements.Some?
  {
    if chain == [] then None
    else
      assert forall i :: 1 <= i < |chain| ==> chain[i] == chain[1..][i - 1];
      if chain[0].elements.Some? then chain[0].elements else FirstElements(chain[1..])
  }

  /** A face texture chased through the variables `t`: a reference to a
      variable not yet visited is replaced by that variable's value and chased
      further; a concrete texture, a reference to no variable, or a reference
      back into `visited` (a cycle) ends the chase. */
  function ChaseFace(t: map<string, string>, value: string, visited: set<string>): (r: string)
    ensures r == value || r in t.Values
    decreases t.Keys - visited
  {
    if IsReference(value) && ReferencedKey(value) in t && ReferencedKey(value) !in visited
    then ChaseFace(t, t[ReferencedKey(value)], visited + {ReferencedKey(value)})
    else value
  }

  /** A face texture after the merge: a reference is chased through the
      merged variables; anything else is kept. */
  function MergedFaceTexture(textures: Option<map<string, string>>, value: string): (r: string)
    ensures !IsReference(value) || textures.None? ==> r == value
    ensures r == value || (textures.Some? && r in textures.value.Values)
  {
    if textures.Some? then ChaseFace(textures.value, value, {}) else value
  }

  /** A face naming a variable whose value is concrete shows that value. */
  lemma ChaseOneHop(t: map<string, string>, k: string)
    requires k in t && !IsReference(t[k])
    ensures MergedFaceTexture(Some(t), "#" + k) == t[k]
  {
    assert IsReference("#" + k) && ReferencedKey("#" + k) == k;
    assert {} + {k} == {k};
    assert ChaseFace(t, t[k], {k}) == t[k];
  }

  /** Two hops: a face naming `k1`, where `k1` holds `#k2` and `k2` a concrete
      texture, shows that texture (the usual `#down -> #all -> block/stone`). */
  lemma ChaseTwoHops(t: map<string, string>, k1: string, k2: string)
    requires k1 in t && k2 in t && k1 != k2
    requires t[k1] == "#" + k2 && !IsReference(t[k2])
    ensures MergedFaceTexture(Some(t), "#" + k1) == t[k2]
  {
    assert IsReference("#" + k1) && ReferencedKey("#" + k1) == k1;
    assert IsReference("#" + k2) && ReferencedKey("#" + k2) == k2;
    assert {} + {k1} == {k1};
    assert {k1} + {k2} == {k1, k2};
    assert ChaseFace(t, t[k2], {k1, k2}) == t[k2];
    assert ChaseFace(t, "#" + k2, {k1}) == t[k2];
  }

  /** An element whose face textures are chased through the merged variables. */
  function MergedElement(e: Element, textures: Option<map<string, string>>): Element {
    e.(faces := map f | f in e.faces :: ElementFace(MergedFaceTexture(textures, e.faces[f].texture)))
  }

  /** The merged model: no parent, the merged variables, and the first
      elements found with their face textures chased through the merge. */
  function MergeChain(chain: seq<Model>): (r: Model)
    ensures r.parent.None?
    ensures r.textures.Some? <==> exists i :: 0 <= i < |chain| && chain[i].textures.Some?
    ensures r.elements.Some? <==> exists i :: 0 <= i < |chain| && chain[i].elements.Some?
    ensures r.elements.Some? ==> |r.elements.value| == |FirstElements(chain).value|
  {
    var textures := MergeTextures(chain);
    var elements := FirstElements(chain);
    Model(None, textures,
          if elements.None? then None
          else Some(seq(|elements.value|, i requires 0 <= i < |elements.value| => MergedElement(elements.value[i], textures))))
  }

  /** Does model `m` define texture variable `k`? */
  predicate Defines(m: Model, k: string) {
    m.textures.Some? && k in m.textures.value
  }

  /** Nearest wins: a variable defined at position `i` and by no earlier model
      of the chain takes the value it has at position `i`. */
  lemma {:induction false} NearestWins(chain: seq<Model>, k: string, i: nat)
    requires i < |chain| && Defines(chain[i], k)
    requires forall j :: 0 <= j < i ==> !Defines(chain[j], k)
    ensures MergeTextures(chain).Some? && k in MergeTextures(chain).value
    ensures MergeTextures(chain).value[k] == chain[i].textures.value[k]
  {
    if i > 0 {
      assert forall j :: 0 <= j < i - 1 ==> chain[1..][j] == chain[j + 1];
      NearestWins(chain[1..], k, i - 1);
    }
  }

  /** A variable is in the merge only if some model of the chain defines it. */
  lemma {:induction false} MergedKeysDefined(chain: seq<Model>, k: string)
    requires MergeTextures(chain).Some? && k in MergeTextures(chain).value
    ensures exists i :: 0 <= i < |chain| && Defines(chain[i], k)
  {
    if !Defines(chain[0], k) {
      MergedKeysDefined(chain[1..], k);
      var i :| 0 <= i < |chain[1..]| && Defines(chain[1..][i], k);
      assert Defines(chain[i + 1], k);
    }
  }

  /** A face of the merged elements that names variable `k` shows what the
      value of the nearest model defining `k` chases to; when that value is
      concrete, the face shows it. */
  lemma FaceVariableTakesNearestValue(chain: seq<Model>, i: nat, f: Face, k: string, j: nat)
    requires FirstElements(chain).Some? && i < |FirstElements(chain).value|
    requires f in FirstElements(chain).value[i].faces
    requires FirstElements(chain).value[i].faces[f].texture == "#" + k
    requires j < |chain| && Defines(chain[j], k)
    requires forall l :: 0 <= l < j ==> !Defines(chain[l], k)
    ensures var e := MergeChain(chain).elements.value[i];
      && f in e.faces
      && e.faces[f].texture == ChaseFace(MergeTextures(chain).value, chain[j].textures.value[k], {k})
      && (!IsReference(chain[j].textures.value[k]) ==> e.faces[f].texture == chain[j].textures.value[k])
  {
    NearestWins(chain, k, j);
    var t := MergeTextures(chain).value;
    assert IsReference("#" + k) && ReferencedKey("#" + k) == k;
    assert {} + {k} == {k};
    assert MergedFaceTexture(Some(t), "#" + k) == ChaseFace(t, t[k], {k});
  }

  /** The merge only chases face textures: shapes, face sets and faces
      that name no variable are those of the first elements found. */
  lemma MergedElementsKeepShape(chain: seq<Model>, i: nat)
    requires FirstElements(chain).Some? && i < |FirstElements(chain).value|
    ensures var e := FirstElements(chain).value[i];
      var m := MergeChain(chain).elements.value[i];
      && m.from == e.from && m.to == e.to && m.faces.Keys == e.faces.Keys
      && forall f :: f in e.faces && !IsReference(e.faces[f].texture) ==> m.faces[f] == e.faces[f]
  {
  }

  function Reverse<T>(s: seq<T>): (r: seq<T>)
    ensures |r| == |s|
    ensures forall i :: 0 <= i < |s| ==> r[i] == s[|s| - 1 - i]
  {
    if s == [] then [] else Reverse(s[1..]) + [s[0]]
  }

  /** The chain as the engine hands it to the merge: the model, then its
      ancestors in walk order, which is farthest first. */
  function MergeOrderAsWritten(m: Model, parents: seq<Model>): (chain: seq<Model>)
    ensures |chain| == |parents| + 1 && chain[0] == m
    ensures forall i :: 0 <= i < |parents| ==> chain[i + 1] == parents[i]
  {
    [m] + parents
  }

  /** The chain in the order the merge expects: the model, then its ancestors
      nearest first. */
  function MergeOrder(m: Model, parents: seq<Model>): (chain: seq<Model>)
    ensures |chain| == |parents| + 1 && chain[0] == m
    ensures forall i :: 0 <= i < |parents| ==> chain[|parents| - i] == parents[i]
  {
    [m] + Reverse(parents)
  }

  /** With a grandparent `root`, a parent `mid` and the model `child` (the walk
      yields `[root, mid]`), the engine's order lets the grandparent override
      the parent: both define `all`, the child does not, and the merge takes
      the grandparent's value. */
  lemma MergeOrderAsWrittenFarthestWins()
    ensures
      var child := Model(Some("block/mid"), None, None);
      var mid := Model(Some("block/root"), Some(map["all" := "block/mid_texture"]), None);
      var root := Model(None, Some(map["all" := "block/root_texture"]), None);
      MergeTextures(MergeOrderAsWritten(child, [root, mid])) == Some(map["all" := "block/root_texture"])
  {
    var child := Model(Some("block/mid"), None, None);
    var mid := Model(Some("block/root"), Some(map["all" := "block/mid_texture"]), None);
    var root := Model(None, Some(map["all" := "block/root_texture"]), None);
    var chain := MergeOrderAsWritten(child, [root, mid]);
    assert chain[1..] == [root, mid];
    assert chain[1..][1..] == [mid];
    assert MergeTextures([mid]) == Some(map["all" := "block/mid_texture"]) by {
      assert [mid][1..] == [];
    }
    assert map["all" := "block/mid_texture"] + map["all" := "block/root_texture"]
        == map["all" := "block/root_texture"];
  }

  /** Three-level inheritance: for a variable the parent defines, the merged
      value is the model's own if it defines one and the parent's otherwise,
      whatever the grandparent says. */
  lemma ThreeLevelNearestWins(child: Model, mid: Model, root: Model, k: string)
    requires Defines(mid, k)
    ensures
      var merged := MergeTextures(MergeOrder(child, [root, mid]));
      merged.Some? && k in merged.value &&
      merged.value[k] == (if Defines(child, k) then child.textures.value[k] else mid.textures.value[k])
  {
    var chain := MergeOrder(child, [root, mid]);
    assert chain[0] == child && chain[1] == mid;
    if Defines(child, k) {
      NearestWins(chain, k, 0);
    } else {
      NearestWins(chain, k, 1);
    }
  }

  /* ---------------- texture-variable substitution ---------------- */

  /** The value a texture takes in the substitution pass: a reference is
      replaced by what its variable holds in `copy`, anything else is kept. */
  function Substituted(copy: map<string, string>, value: string): string
    requires IsReference(value) ==> ReferencedKey(value) in copy
  {
    if IsReference(value) then copy[ReferencedKey(value)] else value
  }

  /** Every reference in `t` names a variable of `t`. */
  predicate ReferencesResolvable(t: map<string, string>) {
    forall k :: k in t && IsReference(t[k]) ==> ReferencedKey(t[k]) in t
  }

  /** One substitution pass over `t`, every lookup made in `t` as it was
      before the pass; it aborts when a reference names no variable. */
  function SubstitutionPass(t: map<string, string>): (r: Outcome<map<string, string>>)
    ensures !r.Err?
    ensures r.Ok? <==> ReferencesResolvable(t)
    ensures r.Panicked? ==> exists k :: k in t && IsReference(t[k]) && ReferencedKey(t[k]) !in t
    ensures r.Ok? ==> r.value.Keys == t.Keys
    ensures r.Ok? ==> forall k :: k in t && !IsReference(t[k]) ==> r.value[k] == t[k]
    ensures r.Ok? ==> forall k :: k in t && IsReference(t[k]) ==> r.value[k] == t[ReferencedKey(t[k])]
  {
    if ReferencesResolvable(t) then Ok(map k | k in t :: Substituted(t, t[k]))
    else Panicked(UnresolvableTextureVariable)
  }

  /** The pass does not follow chains: with `a -> #b`, `b -> #c` and
      `c -> block/stone`, variable `a` still holds a reference afterwards. */
  lemma SubstitutionIsSinglePass()
    ensures
      var t := map["a" := "#b", "b" := "#c", "c" := "block/stone"];
      SubstitutionPass(t).Ok? && SubstitutionPass(t).value["a"] == "#c" && IsReference("#c")
  {
    var t := map["a" := "#b", "b" := "#c", "c" := "block/stone"];
    assert ReferencedKey("#b") == "b";
    assert ReferencedKey("#c") == "c";
    assert !IsReference("block/stone");
    assert ReferencesResolvable(t);
  }

  /** The pass as the engine performs it: rewriting each entry of the
      variables map in place, every lookup made in a copy taken before. */
  method SubstituteTextures(textures: map<string, string>) returns (r: Outcome<map<string, string>>)
    ensures r == SubstitutionPass(textures)
  {
    var copy := textures;
    var result := textures;
    var todo := textures.Keys;
    while todo != {}
      invariant todo <= textures.Keys && result.Keys == textures.Keys
      invariant forall k :: k in todo ==> result[k] == textures[k]
      invariant forall k :: k in textures && k !in todo && IsReference(textures[k]) ==>
        ReferencedKey(textures[k]) in copy && result[k] == copy[ReferencedKey(textures[k])]
      invariant forall k :: k in textures && k !in todo && !IsReference(textures[k]) ==> result[k] == textures[k]
      decreases todo
    {
      var k :| k in todo;
      var texture := result[k];
      if IsReference(texture) {
        if ReferencedKey(texture) !in copy {
          return Panicked(UnresolvableTextureVariable);
        }
        result := result[k := copy[ReferencedKey(texture)]];
      }
      todo := todo - {k};
    }
    assert ReferencesResolvable(textures);
    assert result == map k | k in textures :: Substituted(textures, textures[k]);
    r := Ok(result);
  }

  /* ---------------- resolution ---------------- */

  /** The resolved model: a model without a parent unchanged; otherwise the
      merge of the model with its ancestors, followed by one substitution pass
      over the merged texture variables. */
  function Resolve(m: Model, P: ResourceProvider, ghost depth: nat): (r: Outcome<Model>)
    requires ChainEnds(m, P, depth)
    ensures !r.Err?
    ensures m.parent.None? ==> r == Ok(m)
    ensures m.parent.Some? && r.Ok? ==> r.value.parent.None?
  {
    if m.parent.None? then Ok(m)
    else
      var walk := AncestorPaths(m, P, depth);
      if !walk.Ok? then Panicked(walk.panic)
      else
        AncestorPathsLoadable(m, P, depth);
        var merged := MergeChain(MergeOrder(m, LoadAll(walk.value, P)));
        if merged.textures.None? then Ok(merged)
        else
          var pass := SubstitutionPass(merged.textures.value);
          if pass.Ok? then Ok(merged.(textures := Some(pass.value)))
          else Panicked(UnresolvableTextureVariable)
  }

  /** The chain handed to the merge for a model with ancestors `paths`. */
  ghost function ChainOf(m: Model, P: ResourceProvider, paths: seq<ResourcePath>): seq<Model>
    requires ParentLinked(m, P, paths)
  {
    MergeOrder(m, LoadAll(paths, P))
  }

  /** Resolution of a model with ancestors `paths` (farthest first): it goes
      through exactly when every reference among the merged variables names a
      merged variable, and a variable `k` first defined at position `i` of the
      nearest-first chain then holds that definition's value, or, when the
      value is a reference, what the referenced variable held in the merge. */
  lemma ResolvedVariable(m: Model, P: ResourceProvider, depth: nat, paths: seq<ResourcePath>, k: string, i: nat)
    requires ChainEnds(m, P, depth) && ParentLinked(m, P, paths) && m.parent.Some?
    requires i < |ChainOf(m, P, paths)| && Defines(ChainOf(m, P, paths)[i], k)
    requires forall j :: 0 <= j < i ==> !Defines(ChainOf(m, P, paths)[j], k)
    ensures MergeTextures(ChainOf(m, P, paths)).Some? && k in MergeTextures(ChainOf(m, P, paths)).value
    ensures Resolve(m, P, depth).Ok? <==> ReferencesResolvable(MergeTextures(ChainOf(m, P, paths)).value)
    ensures var r := Resolve(m, P, depth); var v := ChainOf(m, P, paths)[i].textures.value[k];
      r.Ok? ==> && r.value.textures.Some? && k in r.value.textures.value
                && (!IsReference(v) ==> r.value.textures.value[k] == v)
    ensures var r := Resolve(m, P, depth); var v := ChainOf(m, P, paths)[i].textures.value[k];
      var merged := MergeTextures(ChainOf(m, P, paths)).value;
      r.Ok? && IsReference(v) ==>
        && ReferencedKey(v) in merged && r.value.textures.Some? && k in r.value.textures.value
        && r.value.textures.value[k] == merged[ReferencedKey(v)]
  {
    LinkedIsAncestorPaths(m, P, depth, paths);
    NearestWins(ChainOf(m, P, paths), k, i);
  }

  /** Resolution as the engine performs it: walk, reload every ancestor,
      merge, then substitute. */
  method ResolveModel(m: Model, P: ResourceProvider, ghost depth: nat) returns (r: Outcome<Model>)
    requires ChainEnds(m, P, depth)
    ensures r == Resolve(m, P, depth)
  {
    if m.parent.None? {
      return Ok(m);
    }
    var walk := RecurseModelParents(m, P, [], depth);
    if !walk.Ok? {
      return Panicked(walk.panic);
    }
    var parentPaths := walk.value;
    assert parentPaths == AncestorPaths(m, P, depth).value;
    AncestorPathsLoadable(m, P, depth);
    var parents := LoadAll(parentPaths, P);
    var schema := MergeChain(MergeOrder(m, parents));
    if schema.textures.Some? {
      var textures := SubstituteTextures(schema.textures.value);
      if !textures.Ok? {
        return Panicked(UnresolvableTextureVariable);
      }
      schema := schema.(textures := Some(textures.value));
    }
    r := Ok(schema);
  }
}

=== FILE: types.dfy ===
/** Values shared by the block-model baking engine: the model schema it reads,
    the resource provider it reads from, and the outcomes it reports. */
module Types {

  /** The unsigned widths the vertex layout uses. */
  newtype u16 = x: int | 0 <= x < 0x1_0000
  newtype u32 = x: int | 0 <= x < 0x1_0000_0000

  /** A namespaced logical resource id, used as a string key. */
  type ResourcePath = string

  datatype Option<+T> = None | Some(value: T)

  /** An atlas rectangle as two corner points: ((u0, v0), (u1, v1)). */
  type UV = ((u16, u16), (u16, u16))

  /** The six face directions of a cuboid element. */
  datatype Face = North | East | South | West | Up | Down

  /** A model-space position; model space is the cube 0..16 on every axis. */
  datatype Vec3 = Vec3(x: real, y: real, z: real)

  /** One face of an element: the texture it shows, as written in the model. */
  datatype ElementFace = ElementFace(texture: string)

  /** One cuboid of a model. */
  datatype Element = Element(from: Vec3, to: Vec3, faces: map<Face, ElementFace>)

  /** A block model document: optional parent model id, optional texture
      variables (name to texture id or `#name` reference), optional elements. */
  datatype Model = Model(
    parent: Option<string>,
    textures: Option<map<string, string>>,
    elements: Option<seq<Element>>)

  /** What reading a model resource yields: a document that parses into the
      schema, or text that does not. */
  datatype Document = Parsed(model: Model) | Malformed

  /** The resource provider: model documents by path and raw bytes (texture
      images) by path. A path that is not a key is a missing resource. */
  datatype ResourceProvider = ResourceProvider(
    strings: map<ResourcePath, Document>,
    bytes: map<ResourcePath, seq<bv8>>)

  /** The errors a bake reports to its caller. */
  datatype MeshBakeError =
    | UnresolvedTextureReference(key: string, value: string)
    | UnresolvedResourcePath(path: ResourcePath)
    | JsonError

  /** The places where the engine aborts the process instead of reporting an error. */
  datatype Panic =
    | MissingParentModel(path: ResourcePath)
    | MalformedParentModel(path: ResourcePath)
    | UnresolvableTextureVariable
    | MissingTextureBytes(path: ResourcePath)

  /** The result of a step: a value, a reported error, or an abort. */
  datatype Outcome<+T> = Ok(value: T) | Err(error: MeshBakeError) | Panicked(panic: Panic)

  /** A texture value is a variable reference when it starts with `#`. */
  predicate IsReference(s: string) {
    |s| > 0 && s[0] == '#'
  }

  /** The variable name a reference points at. */
  function ReferencedKey(s: string): string
    requires IsReference(s)
  {
    s[1..]
  }

  /** `prepend(prefix)` followed by `append(suffix)` on a resource path. */
  function Wrapped(prefix: string, id: string, suffix: string): ResourcePath {
    prefix + id + suffix
  }

  /** The resource path of a model id. */
  function ModelPath(id: string): ResourcePath {
    Wrapped("models/", id, ".json")
  }

  /** The resource path of a texture id's image. */
  function TexturePath(id: ResourcePath): ResourcePath {
    Wrapped("textures/", id, ".png")
  }
}
